=== FILE: README.md ===
# Grapevine `RESTServer`, modelled in Dafny

This project models the core of the Grapevine REST server
(`src/Grapevine2/Grapevine/Server/RESTServer.cs`) as a sequential state machine
of immutable values and pure functions, and proves properties of it. It covers:

- the configuration properties and their guards;
- the listener prefix `BaseUrl`;
- the constructor, which sizes the worker slots once;
- resource registration and route loading by reflection;
- the listener loop (`HandleRequests` and `QueueRequest`);
- the queue with its `ready` and `stop` events, and the worker loop;
- request dispatch (`ProcessRequest`) with its static-file fallback (`GetFilePath`);
- the success and failure counters;
- the POST-payload and request-rate sample histories and the metrics derived from them;
- `Start` and `Stop`;
- the two example resources of `Grapevine.Example/Program.cs`.

Modules, one file each:

| file | module | what it holds |
|---|---|---|
| `base.dfy` | `Base` | `Option` (a .NET null) and `Result` (a value or a thrown exception) |
| `text.dfy` | `Text` | `Split(c)[0]`, `Replace`, ASCII `ToUpper` and the unchecked `(int)` cast |
| `configuration.dfy` | `Configuration` | the settings record, the guarded setters, `BaseUrl` and the property assignments of the constructor |
| `metrics.dfy` | `Metrics` | the seven counters, the sample records, the AverageCount64 and RateOfCountsPerSecond64 formulas and the four derived metrics |
| `workqueue.dfy` | `WorkQueue` | the queue with its two manual-reset events, one worker turn, and arbitrary interleavings |
| `router.dfy` | `Router` | first-match routing, `GetFilePath` and `ProcessRequest` |
| `registry.dfy` | `Registry` | `LoadRestResources`, checked against a reference definition, and `LoadRestRoutes` |
| `server.dfy` | `Server` | the whole server: constructor, setters, `Start`, `Stop`, listener and worker steps, and the example resources |

Each thread's work is cut into atomic steps at the granularity of the queue lock:
- `ListenerStep` is one accepted request.
- `WorkerStep` is one worker turn. A dequeued request is dispatched within the same turn.

Interleavings are modelled as sequences of such steps (`WorkQueue.Run`). Things the
server cannot see are parameters:
- the regular-expression matcher (`Router.Matcher`);
- the file system (`Router.FileSystem`: `Path.Combine`, `File.Exists`, `Directory.Exists`, the separator);
- whether the transport binds (`bindOk`);
- whether a handler or a file response throws (`Router.Effects`);
- the clock (the sample time `now`);
- whether a webroot directory is usable (`usable`);
- the assemblies loaded in the application domain (`Registry.AssemblyDesc`).

Behaviours of the code worth knowing before reading the contracts:
- `AC64PostReqInterval` clamps `from` up to 0 and `to` down to the last index, but it does
  not clamp the other way. A `from` at or past the end, or a negative `to`, throws.
  With exactly one sample it returns the raw payload sum, not an average.
- The lifetime average is a `long` division that throws on a zero base. It does not return 0.
- The listener counts GETs and POSTs only when the method is exactly upper-case `GET` or
  `POST`. Routing compares the upper-cased method.
- The listener thread is created once, in the constructor, and not at each `Start`
  (see Findings).
- `Stop` before any `Start` throws at the first null worker slot (see Findings).

## Model

| member | source | states |
|---|---|---|
| Text.Before | src/Grapevine2/Grapevine/Server/RESTServer.cs:630 | the first element of `Split(c)` is a prefix of the input that contains no `c` and stops at the first `c` or at the end |
| Text.BeforeUnique | src/Grapevine2/Grapevine/Server/RESTServer.cs:630 | any prefix free of `c` that stops at a `c` or at the end is exactly that first element |
| Text.Replace | src/Grapevine2/Grapevine/Server/RESTServer.cs:711 | character replacement keeps the length, maps every `a` to `b` and keeps every other character |
| Text.ToUpper | src/Grapevine2/Grapevine/Server/RESTServer.cs:631 | upper-casing keeps the length and upper-cases each character on its own |
| Text.ToUpperIdempotent | src/Grapevine2/Grapevine/Server/RESTServer.cs:631 | upper-casing an upper-cased method changes nothing |
| Text.ToInt32 | src/Grapevine2/Grapevine/Server/RESTServer.cs:587 | the cast of a 64-bit length lies in the 32-bit range, is congruent to the length modulo 2^32, and is the length itself when that fits |
| Configuration.SetHost | src/Grapevine2/Grapevine/Server/RESTServer.cs:240-259 | while listening the setter raises the state error; otherwise the host becomes the value and nothing else changes |
| Configuration.SetPort | src/Grapevine2/Grapevine/Server/RESTServer.cs:265-284 | the same guard and frame for the port |
| Configuration.SetProtocol | src/Grapevine2/Grapevine/Server/RESTServer.cs:337-356 | the same guard and frame for the protocol |
| Configuration.SetMaxThreads | src/Grapevine2/Grapevine/Server/RESTServer.cs:301-329 | succeeds exactly when not listening and the value is at least 1; the listening error takes precedence over the range error; success changes only the thread count |
| Configuration.SetWebRoot | src/Grapevine2/Grapevine/Server/RESTServer.cs:219-232 | a non-null usable directory is stored; anything else leaves the webroot as it was; no other property changes |
| Configuration.BaseUrl | src/Grapevine2/Grapevine/Server/RESTServer.cs:290-296 | the prefix is the protocol, then `://`, then the host, then `:`, then the port, then a final `/`, and nothing else |
| Configuration.ProtocolOfBaseUrl | src/Grapevine2/Grapevine/Server/RESTServer.cs:290-296 | a colon-free protocol is recovered from the prefix as the text before its first colon |
| Configuration.BaseUrlIgnoresContent | src/Grapevine2/Grapevine/Server/RESTServer.cs:290-296 | the prefix does not depend on the directory index or the webroot |
| Configuration.Create | src/Grapevine2/Grapevine/Server/RESTServer.cs:44-58 | construction fails exactly when the thread count is below 1; otherwise the arguments are stored; the webroot argument is kept when usable, and the default directory is used (when usable) if not |
| Metrics.TruncDiv | src/Grapevine2/Grapevine/Server/RESTServer.cs:564 | `long` division: the remainder is smaller than the divisor in magnitude and has the sign of the dividend |
| Metrics.AverageDelta | src/Grapevine2/Grapevine/Server/RESTServer.cs:398 | the AverageCount64 value times the base advance equals the raw advance; it is 0 when the base did not advance |
| Metrics.RateDelta | src/Grapevine2/Grapevine/Server/RESTServer.cs:444 | the RateOfCountsPerSecond64 value times the elapsed time equals the count advance; it is 0 when no time passed |
| Metrics.FullAverage | src/Grapevine2/Grapevine/Server/RESTServer.cs:562-565 | throws division by zero exactly when no POST was counted; otherwise it is the sum over the count truncated toward zero (also for the negative sums a wrapped length can produce), which for a non-negative sum over a positive count is the floor |
| Metrics.CurrentAverage | src/Grapevine2/Grapevine/Server/RESTServer.cs:383-401 | 0 with no samples; the lifetime average with one sample (so it throws when the base is zero); never throws with two or more |
| Metrics.RequestsPerSecond | src/Grapevine2/Grapevine/Server/RESTServer.cs:433-447 | 0 with fewer than two samples; otherwise the rate between the last two samples, which is 0 when the clock did not advance between them |
| Metrics.IntervalAverage | src/Grapevine2/Grapevine/Server/RESTServer.cs:539-556 | 0 with no samples; the raw sum with one; otherwise it throws exactly when `from` is at or past the end or `to` is negative, and otherwise it is the average between the samples at `from` raised to 0 and `to` lowered to the last index |
| Metrics.CurrentIsLastInterval | src/Grapevine2/Grapevine/Server/RESTServer.cs:539-556 | with two or more samples, the current-step average is the interval average over the last two samples |
| Metrics.IntervalClampsToWholeHistory | src/Grapevine2/Grapevine/Server/RESTServer.cs:539-556 | indices beyond both ends select the first and the last sample |
| Metrics.HistoryAt | src/Grapevine2/Grapevine/Server/RESTServer.cs:585-592 | the sample recorded for POST number k (from 0) holds the initial sum plus the first k+1 amounts, and a base grown by k+1 |
| Metrics.IntervalIsWindowMean | src/Grapevine2/Grapevine/Server/RESTServer.cs:539-556 | over a recorded history, the interval average between samples i and j is the mean payload of POSTs i+1 to j |
| Metrics.CurrentIsLatestAmount | src/Grapevine2/Grapevine/Server/RESTServer.cs:383-401 | over a recorded history of two or more POSTs, the current-step average is the payload of the latest POST |
| WorkQueue.Enqueue | src/Grapevine2/Grapevine/Server/RESTServer.cs:603-611 | the request joins the tail, `ready` is set, `stop` is untouched, and a waiting item is announced afterwards |
| WorkQueue.WorkerTurn | src/Grapevine2/Grapevine/Server/RESTServer.cs:675-697 | the loop ends exactly when only `stop` is set; `ready` has priority over `stop`; the head is dequeued when there is one, else `ready` is reset; under the invariant a worker never exits with requests waiting |
| WorkQueue.DrainAfterStop | src/Grapevine2/Grapevine/Server/RESTServer.cs:675-697 | after the stop signal a lone worker processes every queued request, in enqueue order, and only then exits, leaving both events clear except `stop` |
| WorkQueue.DrainWhileServing | src/Grapevine2/Grapevine/Server/RESTServer.cs:675-697 | without the stop signal a lone worker processes every queued request in enqueue order and then waits with `ready` reset |
| WorkQueue.RunConserves | src/Grapevine2/Grapevine/Server/RESTServer.cs:603-697 | under any interleaving of enqueues and worker turns, the dequeued requests followed by those still queued are exactly the initial queue followed by the enqueued ones, and a waiting request is always announced |
| Router.FindFrom | src/Grapevine2/Grapevine/Server/RESTServer.cs:631 | the scan from index k returns the first accepting route at or after k, or none when no route from k on accepts |
| Router.FindRoute | src/Grapevine2/Grapevine/Server/RESTServer.cs:631 | `FirstOrDefault`: the selected route accepts and no earlier route does; nothing is selected exactly when no route accepts |
| Router.FirstMatchIsUnique | src/Grapevine2/Grapevine/Server/RESTServer.cs:631 | an accepting route preceded only by non-accepting ones is the one selected |
| Router.MethodCaseIgnored | src/Grapevine2/Grapevine/Server/RESTServer.cs:631 | routing a method and routing its upper-cased form select the same route |
| Router.UrlHead | src/Grapevine2/Grapevine/Server/RESTServer.cs:711 | the file part of the URL is a `?`-free prefix cut at the first `?` when there is one, otherwise at the first `#` |
| Router.RelativeName | src/Grapevine2/Grapevine/Server/RESTServer.cs:711 | the name throws exactly when the URL head is empty; otherwise it is the head without its first character, with every `/` turned into the separator |
| Router.RelativeNameWithQuery | src/Grapevine2/Grapevine/Server/RESTServer.cs:711 | `/a/b?q` names the file `a\b` |
| Router.RelativeNameWithFragment | src/Grapevine2/Grapevine/Server/RESTServer.cs:711 | `/#top` names the webroot itself |
| Router.RelativeNameOfBareQuery | src/Grapevine2/Grapevine/Server/RESTServer.cs:711 | `?x` leaves nothing to cut and throws |
| Router.Resolve | src/Grapevine2/Grapevine/Server/RESTServer.cs:712-727 | the result is an existing file: the combined path itself, or the directory index inside it when the path is a directory; null exactly when neither exists |
| Router.GetFilePath | src/Grapevine2/Grapevine/Server/RESTServer.cs:709-728 | throws exactly when the name derivation throws; otherwise it is the file the derived name resolves to under the webroot, or null when there is none, and a returned path is an existing file |
| Router.ProcessRequest | src/Grapevine2/Grapevine/Server/RESTServer.cs:623-673 | the full outcome table: a matched route counts a success, then a failure and a 500 if its handler throws; an unmatched GET with a webroot tries the file (500 when the lookup throws, 404 when there is no file, a success and then a failure and a 500 when sending throws); anything else is one failure and a 404; only the two counters change |
| Router.MissingFileIsNotFound | src/Grapevine2/Grapevine/Server/RESTServer.cs:623-673 | an unrouted GET whose name resolves to no file under the webroot is a 404 that adds exactly one failure |
| Router.UnroutedIsNotFound | src/Grapevine2/Grapevine/Server/RESTServer.cs:623-673 | a request no route accepts, with no static fallback to try, is a 404 that adds exactly one failure |
| Router.Accounting | src/Grapevine2/Grapevine/Server/RESTServer.cs:623-673 | every request moves each counter by at most one and the two together by at least one; served requests are exactly those with one success and no failure; a 404 is exactly one failure; both counters move only for a 500 |
| Router.ServeAllTally | src/Grapevine2/Grapevine/Server/RESTServer.cs:623-673 | without a webroot a batch adds one success per routed request and one failure per unrouted one, and nothing else |
| Registry.ScannedTypes | src/Grapevine2/Grapevine/Server/RESTServer.cs:95-99 | exactly the types of the assemblies outside the global cache and not on the ignore list: every scanned type comes from such an assembly, and every type of such an assembly is scanned |
| Registry.ScannedTypesInLoadOrder | src/Grapevine2/Grapevine/Server/RESTServer.cs:95-99 | the scan keeps assembly load order: splitting the assembly list splits the scanned types at the same point |
| Registry.ScannedOne | src/Grapevine2/Grapevine/Server/RESTServer.cs:95-99 | one assembly contributes all its types, in declaration order, exactly when it is outside the global cache and not ignored |
| Registry.LoadResources | src/Grapevine2/Grapevine/Server/RESTServer.cs:92-130 | registration of the scanned types succeeds exactly when no candidate is unsealed and the expected entries have distinct names, and then registers exactly the expected entries in scan order |
| Registry.AddPerScopeMeets | src/Grapevine2/Grapevine/Server/RESTServer.cs:104-111 | the scope loop adds the type once per admitting scope and throws a duplicate key exactly when that would repeat a name |
| Registry.LoadTypesMeets | src/Grapevine2/Grapevine/Server/RESTServer.cs:92-130 | against the reference definition: registration succeeds exactly when no candidate is unsealed and the expected entries have distinct names, and then registers exactly those entries in order; a not-sealed error names an unsealed candidate; a duplicate-key error means a name repeats |
| Registry.TypeRoutes | src/Grapevine2/Grapevine/Server/RESTServer.cs:85 | exactly the routed instance methods: every route is built from a non-static method of the type that has a route attribute, and every such method is a route |
| Registry.TypeRoutesInMethodOrder | src/Grapevine2/Grapevine/Server/RESTServer.cs:85-86 | a type's routes keep its method order: splitting the method list splits the routes at the same point |
| Registry.LoadRoutesInRegistrationOrder | src/Grapevine2/Grapevine/Server/RESTServer.cs:82-87 | the route table keeps registration order: the routes of earlier resources precede those of later ones |
| Registry.LoadRoutes | src/Grapevine2/Grapevine/Server/RESTServer.cs:78-90 | the table holds exactly the routed instance methods of the registered resources: every route is built from a non-static routed method of a registered type, so the lookup of its instance by type name cannot miss, and every such method is in the table |
| Server.Create | src/Grapevine2/Grapevine/Server/RESTServer.cs:44-74 | a thread count below 1 throws; otherwise construction succeeds exactly when registration does; a new server has one null worker slot per thread, is not listening, has an empty queue with both events clear, holds the stored counter values and no samples, keeps the constructed settings, the registered resources and exactly their routes, and every route names a registered resource |
| Server.SetMaxThreads | src/Grapevine2/Grapevine/Server/RESTServer.cs:301-329 | the thread count changes under the setter's guard, but the worker slots sized at construction never do |
| Server.SetHost | src/Grapevine2/Grapevine/Server/RESTServer.cs:240-259 | on a server: succeeds exactly when not listening; on failure the server is unchanged |
| Server.SetPort | src/Grapevine2/Grapevine/Server/RESTServer.cs:265-284 | the same for the port |
| Server.SetProtocol | src/Grapevine2/Grapevine/Server/RESTServer.cs:337-356 | the same for the protocol |
| Server.PrefixFrozenWhileListening | src/Grapevine2/Grapevine/Server/RESTServer.cs:240-357 | while listening no setter can change the prefix |
| Server.StartAsWritten | src/Grapevine2/Grapevine/Server/RESTServer.cs:457-496 | no-op when listening; otherwise zeroes all counters, keeps the sample histories, and succeeds exactly when the transport binds and the listener thread was never started; a bind failure is a transport error that leaves the listener thread unstarted and the transport flag as they were, because the bind throws before the thread starts; starting a listener thread that already ran throws with the transport open; a failure leaves it not listening with the slots unchanged; success opens the transport, marks the listener thread started and fills every slot with a running worker; settings, resources, routes, queue and histories never change |
| Server.Start | src/Grapevine2/Grapevine/Server/RESTServer.cs:457-496 | the corrected start: the same, except that it succeeds exactly when the transport binds and it clears the stop event; a bind failure keeps the listener-thread flag, the transport flag and the stop event; settings, resources, routes, queued requests and histories never change |
| Server.SignalStop | src/Grapevine2/Grapevine/Server/RESTServer.cs:501-507 | the stop event is set and nothing else changes |
| Server.JoinAsWritten | src/Grapevine2/Grapevine/Server/RESTServer.cs:508-518 | the joins wait only on a running worker; they complete without error exactly when every slot has exited, closing the transport and ending listening; they throw only when some slot is null, leaving the server as it was |
| Server.Join | src/Grapevine2/Grapevine/Server/RESTServer.cs:501-525 | the corrected joins skip null slots: they complete exactly when no worker is running |
| Server.ContributionCases | src/Grapevine2/Grapevine/Server/RESTServer.cs:587-590 | a length that fits is added as is; an undeclared length adds nothing; a 4 GiB - 1 payload casts to -1 and is skipped; a 2 GiB payload wraps to a negative amount |
| Server.ListenerStep | src/Grapevine2/Grapevine/Server/RESTServer.cs:571-621 | a listening server queues the request, counts it as a GET or a POST only when the method is exactly `GET` or `POST`, adds a POST's cast length and one to the POST base, records a POST sample and a rate sample, and touches nothing else; a stopped server does nothing |
| Server.ListenAllFrame | src/Grapevine2/Grapevine/Server/RESTServer.cs:571-621 | a run of the listener never moves the success or failure counters and records one rate sample per request |
| Server.ListenAllQueues | src/Grapevine2/Grapevine/Server/RESTServer.cs:603-611 | a run of the listener queues every request in arrival order and leaves `ready` set |
| Server.ListenAllCounts | src/Grapevine2/Grapevine/Server/RESTServer.cs:571-621 | a run of the listener counts every GET, every POST and every request |
| Server.ListenAllSums | src/Grapevine2/Grapevine/Server/RESTServer.cs:584-591 | a run of the listener adds each POST's amount to the payload sum and one per POST to its base |
| Server.ListenAllRecords | src/Grapevine2/Grapevine/Server/RESTServer.cs:585-592 | a run of the listener appends exactly the history of running sums and bases, one sample per POST |
| Server.PostAverageScenario | src/Grapevine2/Grapevine/Server/RESTServer.cs:562-565 | after POSTs of 10, 20 and 30 bytes the lifetime average is 20; a fourth of 100 raises it to 40 |
| Server.RateAfterArrival | src/Grapevine2/Grapevine/Server/RESTServer.cs:612-616 | with the rate history in step with the counter, an arrival reads as one request over the time since the previous sample |
| Server.WorkerStep | src/Grapevine2/Grapevine/Server/RESTServer.cs:675-703 | only a running worker acts; it leaves its loop only with the queue empty and both events clear except `stop`; it keeps the queue invariant and the stop event; a turn that dequeues a request dispatches it, leaving the counters as `ProcessRequest` does; an exiting turn changes only the worker's slot, to exited; a turn that clears an event changes only the queue; a blocked turn changes nothing; a turn that changes the server either ends the worker or strictly shrinks the queue's weight; other slots are untouched |
| Server.RunWorkerAfterStop | src/Grapevine2/Grapevine/Server/RESTServer.cs:675-703 | after the stop signal a running worker dispatches every queued request in queue order, exits, and leaves the counters as serving that batch does |
| Server.ServeThenStop | src/Grapevine2/Grapevine/Server/RESTServer.cs:571-703 | with one worker and no webroot, after GETs arrive and the server is stopped, the worker exits having counted one success per routed GET and one failure per unrouted one, and the GET counter counts them all |
| Server.WorkerCountFixed | src/Grapevine2/Grapevine/Server/RESTServer.cs:481-485 | whatever the thread count is later set to, a start runs exactly the constructor's number of workers |
| Server.SlotsStayNullUntilStart | src/Grapevine2/Grapevine/Server/RESTServer.cs:63 | the listener, the workers, the stop signal, the setters and a failed start all leave null slots null |
| Server.StopIsRepeatableAsWritten | src/Grapevine2/Grapevine/Server/RESTServer.cs:501-525 | as written, a stop that completed leaves the server not listening with the transport closed, and a second stop completes at once without an exception |
| Server.StopIsRepeatable | src/Grapevine2/Grapevine/Server/RESTServer.cs:501-525 | with the corrected joins, a completed stop leaves the server not listening with the transport closed, and a second stop completes at once without an exception |
| Server.RestartFailsAsWritten | src/Grapevine2/Grapevine/Server/RESTServer.cs:457-496 | as written, a server that was started and stopped throws on its next start and is left not listening |
| Server.RestartSucceeds | src/Grapevine2/Grapevine/Server/RESTServer.cs:457-496 | corrected, the same server restarts: it listens, every worker runs, and a worker facing the empty queue waits instead of exiting |
| Server.StopBeforeStartFailsAsWritten | src/Grapevine2/Grapevine/Server/RESTServer.cs:508-513 | as written, stopping a server that never started throws at the first null worker slot |
| Server.StopBeforeStartSucceeds | src/Grapevine2/Grapevine/Server/RESTServer.cs:501-525 | corrected, stopping a server that never started completes and leaves it not listening |
| Server.OnlyMatchingScopeRegisters | src/Grapevine2/Grapevine/Server/RESTServer.cs:104-111 | of two sealed single-scope resources, only the one scoped to the base URL is registered |
| Server.ExampleRegistration | src/Grapevine2/Grapevine.Example/Program.cs:222-242 | a server on `http://localhost:1234/` registers `ResourceA` and not `ResourceB` |
| Server.ExampleRoutes | src/Grapevine2/Grapevine.Example/Program.cs:222-230 | its route table holds exactly `ResourceA`'s one GET route |
| Server.ExampleUnrouted | src/Grapevine2/Grapevine.Example/Program.cs:206-216 | when `ResourceA`'s pattern does not match `/resource/b/random`, no route of that table accepts the GET for it |
| Server.ExampleNotFound | src/Grapevine2/Grapevine.Example/Program.cs:206-216 | so, when no webroot is set, that GET is a 404 that adds exactly one failure |
| Server.ThreeSegmentName | src/Grapevine2/Grapevine/Server/RESTServer.cs:709-728 | a URL `/a/b/c` without query or fragment names the file `a`, separator, `b`, separator, `c` |
| Server.ExampleFileMissing | src/Grapevine2/Grapevine.Example/Program.cs:206-216 | with a webroot set, as the example servers have by default, that GET tries the file `resource`, `b`, `random` under the webroot; when neither that file nor a directory index for it exists, it is a 404 that adds exactly one failure |

## Left out

- Threads, blocking and timing. Each thread is cut into atomic steps at the queue lock.
  Counter increments outside the lock are folded into the step that makes them.
  Dispatch happens within the dequeuing worker's turn.
- Several workers serving concurrently. Only the queue's behaviour is proved for arbitrary
  interleavings (`WorkQueue.RunConserves`); the counter tally is proved for a single
  worker (`Server.ServeThenStop`).
- `HttpListener`:
  - how prefixes are added and matched, and that a failed start leaves its prefix registered;
  - unblocking `GetContext` on stop (modelled as the listener stepping no more once listening ends);
  - exceptions thrown by `GetContext` inside the loop, which are logged and skipped.
- Response writing (`SendTextResponse`, `SendFileResponse`, `NotFound`,
  `InternalServerError`): only the response kind is modelled. An exception thrown while
  writing a 404 or 500 is not modelled.
- `EventLogger`, and the four lifecycle hooks. The hooks are user code and are assumed to have
  no effect on the server. Only their exceptions are known to be swallowed (`FireDelegate`).
  A hook that calls a setter could, for example, change the prefix before it is bound.
- `Dispose`, which only calls `Stop`.
- `PerformanceCounter` storage:
  - counters are unbounded integers, with no 64-bit overflow;
  - counter values kept by the system store across runs are a constructor parameter (`stored`);
  - derived metrics are exact reals instead of `double`/`float`;
  - the sample timestamp is an abstract real number of seconds.
- Metrics.AverageDelta: for a base that went backwards the platform calculator also reports 0,
  which matches. Its other corner cases (negative raw deltas, for example) are computed
  exactly here, not as the platform calculator does.
- Metrics.RateDelta: the platform calculator's handling of counters that went backwards is
  not modelled; the exact formula is used.
- Text.ToUpper: culture-sensitive upper-casing is reduced to the ASCII letters.
- Regular-expression matching and `Path.Combine`, `File.Exists` and `Directory.Exists`
  are opaque parameters. The exceptions `Path.Combine` and `Regex` can throw are not modelled.
- Reflection details:
  - the cast of every custom attribute of a method to `RESTRoute` during routing, which
    throws when a routed method has another attribute;
  - `Activator.CreateInstance`;
  - `ReflectedType`;
  - setting `resource.Server`.
  Resources are registered by their type description, and a route names its type.
- The order of `Dictionary` enumeration: the route table, and so first-match routing, assumes
  the resource dictionary enumerates in insertion order, which .NET does not document.
- `VerifyWebRoot`: whether a directory exists or can be created is the parameter `usable`,
  and the exception it logs is not modelled.
- `Config`-based construction, which only forwards its fields to the main constructor.

## Findings

| source | as written | input that shows it | evidently intended | confidence | as-written member | corrected member |
|---|---|---|---|---|---|---|
| src/Grapevine2/Grapevine/Server/RESTServer.cs:64 | the listener thread is created once, in the constructor, and `Start` starts it again (line 479); `_stop`, set by `Stop`, is never reset | construct, `Start`, `Stop`, `Start`: the second `Start` throws `ThreadStateException` after opening the transport, and the server is left not listening | a fresh listener thread on every start and the stop event cleared, so a stopped server can be restarted | medium, not executed | Server.StartAsWritten (shown by Server.RestartFailsAsWritten) | Server.Start (shown by Server.RestartSucceeds) |
| src/Grapevine2/Grapevine/Server/RESTServer.cs:508-513 | `Stop` joins every element of `_workers`, but only the array is checked for null; its slots stay null until the first `Start` | construct, `Stop`: `worker.Join()` on a null slot throws `NullReferenceException`, which is rethrown | slots never started are skipped, so `Stop` before `Start` completes | medium, not executed | Server.JoinAsWritten (shown by Server.StopBeforeStartFailsAsWritten) | Server.Join (shown by Server.StopBeforeStartSucceeds) |

=== FILE: base.dfy ===
/** Failure-carrying wrappers shared by the whole model: an absent value and
    the outcome of an operation that can raise an exception. */
module Base {

  /** A value that may be missing (a .NET `null` reference). */
  datatype Option<+T> = None | Some(value: T)

  /** The outcome of an operation that either returns a value or throws. */
  datatype Result<+T, +E> = Ok(value: T) | Err(error: E)

  /** Concatenation regroups freely. */
  lemma AppendAssociates<T>(a: seq<T>, b: seq<T>, c: seq<T>)
    ensures a + (b + c) == (a + b) + c
  {
  }
}

=== FILE: configuration.dfy ===
/** The server's configuration properties, their guarded setters, the
    constructor that assigns them, and the listener prefix built from them. */
module Configuration {
  import opened Base
  import opened Text

  /** Host, port and protocol form the listener prefix; `webRoot` is the
      static-file directory (`None` when no usable directory was found);
      `maxThreads` is the worker count requested. */
  datatype Settings = Settings(
    host: string,
    port: string,
    protocol: string,
    dirIndex: string,
    webRoot: Option<string>,
    maxThreads: int)

  /** The four properties that are frozen while the server listens. */
  datatype Property = HostProperty | PortProperty | ProtocolProperty | MaxThreadsProperty

  /** Both reasons raise a `ServerStateException`. */
  datatype StateError =
    | ModifiedWhileListening(property: Property)
    | MaxThreadsBelowOne(requested: int)

  function SetHost(c: Settings, listening: bool, value: string): (r: Result<Settings, StateError>)
    ensures listening ==> r == Err(ModifiedWhileListening(HostProperty))
    ensures !listening ==> r.Ok? && r.value.host == value && r.value.(host := c.host) == c
  {
    if listening then Err(ModifiedWhileListening(HostProperty)) else Ok(c.(host := value))
  }

  function SetPort(c: Settings, listening: bool, value: string): (r: Result<Settings, StateError>)
    ensures listening ==> r == Err(ModifiedWhileListening(PortProperty))
    ensures !listening ==> r.Ok? && r.value.port == value && r.value.(port := c.port) == c
  {
    if listening then Err(ModifiedWhileListening(PortProperty)) else Ok(c.(port := value))
  }

  function SetProtocol(c: Settings, listening: bool, value: string): (r: Result<Settings, StateError>)
    ensures listening ==> r == Err(ModifiedWhileListening(ProtocolProperty))
    ensures !listening ==> r.Ok? && r.value.protocol == value && r.value.(protocol := c.protocol) == c
  {
    if listening then Err(ModifiedWhileListening(ProtocolProperty)) else Ok(c.(protocol := value))
  }

  /** The listening check comes first, so a listening server reports the
      state error even for a count below one. */
  function SetMaxThreads(c: Settings, listening: bool, value: int): (r: Result<Settings, StateError>)
    ensures listening ==> r == Err(ModifiedWhileListening(MaxThreadsProperty))
    ensures !listening && value < 1 ==> r == Err(MaxThreadsBelowOne(value))
    ensures r.Ok? <==> !listening && value >= 1
    ensures r.Ok? ==> r.value.maxThreads == value && r.value.(maxThreads := c.maxThreads) == c
  {
    if listening then Err(ModifiedWhileListening(MaxThreadsProperty))
    else if value >= 1 then Ok(c.(maxThreads := value))
    else Err(MaxThreadsBelowOne(value))
  }

  /** The `WebRoot` setter: the value is kept only when it is non-null and
      `usable` holds of it (the directory exists or could be created);
      otherwise the assignment is silently ignored. Not guarded by listening. */
  function SetWebRoot(c: Settings, value: Option<string>, usable: string -> bool): (r: Settings)
    ensures r.(webRoot := c.webRoot) == c
    ensures r.webRoot == c.webRoot || r.webRoot == value
    ensures r.webRoot != c.webRoot ==> value.Some? && usable(value.value)
    ensures value.Some? && usable(value.value) ==> r.webRoot == value
  {
    if value.Some? && usable(value.value) then c.(webRoot := value) else c
  }

  /** The listener prefix `{protocol}://{host}:{port}/`. */
  function BaseUrl(c: Settings): (r: string)
    ensures |r| == |c.protocol| + |c.host| + |c.port| + 5
    ensures r[..|c.protocol|] == c.protocol
    ensures r[|c.protocol|..|c.protocol| + 3] == "://"
    ensures r[|c.protocol| + 3..|c.protocol| + 3 + |c.host|] == c.host
    ensures r[|c.protocol| + 3 + |c.host|] == ':'
    ensures r[|c.protocol| + 4 + |c.host|..|r| - 1] == c.port
    ensures r[|r| - 1] == '/'
  {
    c.protocol + "://" + c.host + ":" + c.port + "/"
  }

  /** A colon-free protocol is recovered from the prefix as the text before
      its first colon. */
  lemma ProtocolOfBaseUrl(c: Settings)
    requires ':' !in c.protocol
    ensures Before(BaseUrl(c), ':') == c.protocol
  {
    var u := BaseUrl(c);
    assert u[|c.protocol|] == ':';
    assert c.protocol <= u;
    BeforeUnique(u, ':', c.protocol);
  }

  /** The prefix depends on protocol, host and port only, so changing the
      directory index or the webroot leaves it alone. */
  lemma BaseUrlIgnoresContent(c: Settings, dirIndex: string, root: Option<string>, usable: string -> bool)
    ensures BaseUrl(SetWebRoot(c.(dirIndex := dirIndex), root, usable)) == BaseUrl(c)
  {
  }

  /** The constructor. Properties are assigned in the source's order while not
      listening; a `maxThreads` below one makes construction throw. The
      webroot argument is tried first; when that leaves the webroot null
      (argument null or unusable) the default directory is tried. */
  function Create(host: string, port: string, protocol: string, dirIndex: string,
                  webRoot: Option<string>, maxThreads: int,
                  defaultRoot: string, usable: string -> bool): (r: Result<Settings, StateError>)
    ensures r.Ok? <==> maxThreads >= 1
    ensures r.Err? ==> r.error == MaxThreadsBelowOne(maxThreads)
    ensures r.Ok? ==> r.value.host == host && r.value.port == port
                      && r.value.protocol == protocol && r.value.dirIndex == dirIndex
                      && r.value.maxThreads == maxThreads
    ensures r.Ok? && webRoot.Some? && usable(webRoot.value) ==> r.value.webRoot == webRoot
    ensures r.Ok? && !(webRoot.Some? && usable(webRoot.value)) ==>
              r.value.webRoot == (if usable(defaultRoot) then Some(defaultRoot) else None)
  {
    var blank := Settings("", "", "", dirIndex, None, 0);
    var c1 := SetHost(blank, false, host).value;
    var c2 := SetPort(c1, false, port).value;
    var c3 := SetProtocol(c2, false, protocol).value;
    match SetMaxThreads(c3, false, maxThreads)
    case Err(e) => Err(e)
    case Ok(c4) =>
      var c5 := SetWebRoot(c4, webRoot, usable);
      Ok(if c5.webRoot.None? then SetWebRoot(c5, Some(defaultRoot), usable) else c5)
  }
}

=== FILE: metrics.dfy ===
/** The seven raw performance counters, the two sample histories the
    listener appends to, and the derived metrics computed from them. */
module Metrics {
  import opened Base

  /** Raw counter values, named after the server's counters:
      `failed` NOI64NSTran, `succeeded` NOI64STran, `postBytes` AC64PostReq,
      `postBase` AC64PostReqBase, `requests` ROCPS64ReqPerSec,
      `gets` NOI64GetReqCount, `posts` NOI64PostReqCount. */
  datatype Counters = Counters(
    failed: int,
    succeeded: int,
    postBytes: int,
    postBase: int,
    requests: int,
    gets: int,
    posts: int)

  const Zero := Counters(0, 0, 0, 0, 0, 0, 0)

  /** A sample of the AverageCount64 counter: its raw value and its base. */
  datatype AvgSample = AvgSample(raw: int, base: int)

  /** A sample of the RateOfCountsPerSecond64 counter; `time` is in seconds. */
  datatype RateSample = RateSample(raw: int, time: real)

  datatype MetricError = DivideByZero | IndexOutOfRange

  function Abs(x: int): nat { if x < 0 then -x else x }

  /** C# integer division of 64-bit values: the quotient is truncated toward
      zero, so the remainder takes the sign of the dividend. */
  function TruncDiv(a: int, b: int): (q: int)
    requires b != 0
    ensures Abs(a - q * b) < Abs(b)
    ensures a >= 0 ==> 0 <= a - q * b
    ensures a <= 0 ==> a - q * b <= 0
  {
    var n := Abs(a) / Abs(b);
    DivRem(Abs(a), Abs(b));
    NegateProduct(n, Abs(b));
    if (a < 0) == (b < 0) then n else -n
  }

  lemma DivRem(x: nat, y: nat)
    requires y > 0
    ensures 0 <= x - (x / y) * y < y
  {
  }

  lemma NegateProduct(x: int, y: int)
    ensures (-x) * y == -(x * y) && x * (-y) == -(x * y) && (-x) * (-y) == x * y
  {
  }

  /** The AverageCount64 formula between two samples,
      (N2 - N1) / (B2 - B1), in exact arithmetic; the calculator reports 0
      when the base did not advance. */
  function AverageDelta(older: AvgSample, newer: AvgSample): (r: real)
    ensures newer.base > older.base ==>
              r * (newer.base - older.base) as real == (newer.raw - older.raw) as real
    ensures newer.base <= older.base ==> r == 0.0
  {
    if newer.base - older.base <= 0 then 0.0
    else (newer.raw - older.raw) as real / (newer.base - older.base) as real
  }

  /** The RateOfCountsPerSecond64 formula, (V2 - V1) / (T2 - T1); 0 when
      the clock did not advance. */
  function RateDelta(older: RateSample, newer: RateSample): (r: real)
    ensures newer.time > older.time ==>
              r * (newer.time - older.time) == (newer.raw - older.raw) as real
    ensures newer.time <= older.time ==> r == 0.0
  {
    if newer.time - older.time <= 0.0 then 0.0
    else (newer.raw - older.raw) as real / (newer.time - older.time)
  }

  /** `AC64PostReqFullAverage`: lifetime payload sum over lifetime POST base,
      a long division that throws when no POST was counted. */
  function FullAverage(c: Counters): (r: Result<int, MetricError>)
    ensures r.Err? <==> c.postBase == 0
    ensures r.Err? ==> r.error == DivideByZero
    ensures r.Ok? ==> r.value == TruncDiv(c.postBytes, c.postBase)
    ensures r.Ok? && c.postBytes >= 0 && c.postBase > 0 ==>
              r.value * c.postBase <= c.postBytes < r.value * c.postBase + c.postBase
  {
    if c.postBase == 0 then Err(DivideByZero) else Ok(TruncDiv(c.postBytes, c.postBase))
  }

  /** `AC64PostReq`: the average payload of the latest step. */
  function CurrentAverage(samples: seq<AvgSample>, c: Counters): (r: Result<real, MetricError>)
    ensures |samples| == 0 ==> r == Ok(0.0)
    ensures |samples| == 1 ==> (r.Err? <==> c.postBase == 0)
    ensures |samples| == 1 && r.Ok? ==> r.value == FullAverage(c).value as real
    ensures |samples| >= 2 ==> r.Ok?
  {
    var n := |samples|;
    if n == 0 then Ok(0.0)
    else if n == 1 then
      (match FullAverage(c)
       case Ok(v) => Ok(v as real)
       case Err(e) => Err(e))
    else Ok(AverageDelta(samples[n - 2], samples[n - 1]))
  }

  /** `ROCPS64ReqPerSec`: requests per second over the latest step. */
  function RequestsPerSecond(samples: seq<RateSample>): (r: real)
    ensures |samples| <= 1 ==> r == 0.0
    ensures |samples| >= 2 && samples[|samples| - 1].time <= samples[|samples| - 2].time ==> r == 0.0
    ensures |samples| >= 2 && samples[|samples| - 1].time > samples[|samples| - 2].time ==>
              r * (samples[|samples| - 1].time - samples[|samples| - 2].time)
                == (samples[|samples| - 1].raw - samples[|samples| - 2].raw) as real
  {
    if |samples| <= 1 then 0.0
    else
      var older, newer := samples[|samples| - 2], samples[|samples| - 1];
      RateDelta(older, newer)
  }

  /** `AC64PostReqInterval(from, to)`. With one sample it returns the raw
      payload sum, not an average. Otherwise `from` below 0 is raised to 0 and
      `to` past the end is lowered to the last index; an index still out of
      range (`from` at or past the end, `to` negative) throws. */
  function IntervalAverage(samples: seq<AvgSample>, c: Counters, from: int, to: int): (r: Result<real, MetricError>)
    ensures |samples| == 0 ==> r == Ok(0.0)
    ensures |samples| == 1 ==> r == Ok(c.postBytes as real)
    ensures |samples| >= 2 ==> (r.Err? <==> from >= |samples| || to < 0)
    ensures r.Err? ==> r.error == IndexOutOfRange
    ensures |samples| >= 2 && r.Ok? ==>
              r.value == AverageDelta(samples[if from < 0 then 0 else from],
                                      samples[if to >= |samples| then |samples| - 1 else to])
    ensures |samples| >= 2 && 0 <= from && to < |samples| && r.Ok? ==>
              r.value == AverageDelta(samples[from], samples[to])
  {
    var n := |samples|;
    if n == 0 then Ok(0.0)
    else if n == 1 then Ok(c.postBytes as real)
    else
      var lo := if from < 0 then 0 else from;
      var hi := if to >= n then n - 1 else to;
      if lo >= n || hi < 0 then Err(IndexOutOfRange)
      else Ok(AverageDelta(samples[lo], samples[hi]))
  }

  /** With two or more samples the current-step average is the interval
      average over the last two samples. */
  lemma CurrentIsLastInterval(samples: seq<AvgSample>, c: Counters)
    requires |samples| >= 2
    ensures CurrentAverage(samples, c) == IntervalAverage(samples, c, |samples| - 2, |samples| - 1)
  {
  }

  /** Indices outside the history on both sides select its whole span. */
  lemma IntervalClampsToWholeHistory(samples: seq<AvgSample>, c: Counters, from: int, to: int)
    requires |samples| >= 2 && from <= 0 && to >= |samples| - 1
    ensures IntervalAverage(samples, c, from, to) == Ok(AverageDelta(samples[0], samples[|samples| - 1]))
  {
  }

  // ---------------------------------------------------------------------
  // The meaning of the averages over the history the listener records.

  function Sum(xs: seq<int>): int
  {
    if |xs| == 0 then 0 else Sum(xs[..|xs| - 1]) + xs[|xs| - 1]
  }

  lemma {:induction false} SumAppend(xs: seq<int>, ys: seq<int>)
    ensures Sum(xs + ys) == Sum(xs) + Sum(ys)
    decreases |ys|
  {
    if |ys| == 0 {
      assert xs + ys == xs;
    } else {
      var ys' := ys[..|ys| - 1];
      assert (xs + ys)[..|xs + ys| - 1] == xs + ys';
      SumAppend(xs, ys');
    }
  }

  /** The history of POST samples recorded from counters `sum0`/`base0` when
      POSTs contributing `amounts` arrive one by one: each POST adds its
      amount to the raw value and one to the base, then records a sample. */
  function History(sum0: int, base0: int, amounts: seq<int>): (h: seq<AvgSample>)
    ensures |h| == |amounts|
    decreases |amounts|
  {
    if |amounts| == 0 then []
    else [AvgSample(sum0 + amounts[0], base0 + 1)] + History(sum0 + amounts[0], base0 + 1, amounts[1..])
  }

  /** After the k-th POST of a history the raw value is the running sum of
      the amounts so far and the base has grown by k. */
  lemma {:induction false} HistoryAt(sum0: int, base0: int, amounts: seq<int>, k: nat)
    requires k < |amounts|
    ensures History(sum0, base0, amounts)[k] == AvgSample(sum0 + Sum(amounts[..k + 1]), base0 + k + 1)
    decreases k
  {
    var a, rest := amounts[0], amounts[1..];
    assert [a][..0] == [];
    assert Sum([a]) == a;
    if k == 0 {
      assert amounts[..1] == [a];
    } else {
      HistoryAt(sum0 + a, base0 + 1, rest, k - 1);
      assert amounts[..k + 1] == [a] + rest[..k];
      SumAppend([a], rest[..k]);
    }
  }

  /** Recording one more POST moves its sample from the history still to
      come to the samples already recorded. */
  lemma RecordOne(samples: seq<AvgSample>, sum0: int, base0: int, a: int, rest: seq<int>, sum1: int, base1: int)
    requires sum1 == sum0 + a && base1 == base0 + 1
    ensures samples + History(sum0, base0, [a] + rest)
              == (samples + [AvgSample(sum1, base1)]) + History(sum1, base1, rest)
  {
    assert ([a] + rest)[1..] == rest;
    AppendAssociates(samples, [AvgSample(sum1, base1)], History(sum1, base1, rest));
  }

  /** Over such a history the interval average between samples `i < j` is the
      mean of the amounts of POSTs i+1 .. j. */
  lemma {:induction false} IntervalIsWindowMean(sum0: int, base0: int, amounts: seq<int>, i: nat, j: nat)
    requires i < j < |amounts|
    ensures var h := History(sum0, base0, amounts);
            AverageDelta(h[i], h[j]) * (j - i) as real == Sum(amounts[i + 1..j + 1]) as real
  {
    var h := History(sum0, base0, amounts);
    HistoryAt(sum0, base0, amounts, i);
    HistoryAt(sum0, base0, amounts, j);
    SumWindow(amounts, i + 1, j + 1);
    DeltaTimesGap(h[i], h[j], j - i, Sum(amounts[i + 1..j + 1]));
  }

  /** The sum of a window is the difference of two prefix sums. */
  lemma SumWindow(xs: seq<int>, i: nat, j: nat)
    requires i <= j <= |xs|
    ensures Sum(xs[..j]) - Sum(xs[..i]) == Sum(xs[i..j])
  {
    assert xs[..j] == xs[..i] + xs[i..j];
    SumAppend(xs[..i], xs[i..j]);
  }

  /** Samples `gap` base units apart whose raw values differ by `total`
      average `total / gap` per unit. */
  lemma DeltaTimesGap(older: AvgSample, newer: AvgSample, gap: nat, total: int)
    requires newer.base - older.base == gap > 0 && newer.raw - older.raw == total
    ensures AverageDelta(older, newer) * gap as real == total as real
  {
  }

  /** Over such a history the current-step average is the amount of the
      latest POST. */
  lemma CurrentIsLatestAmount(sum0: int, base0: int, amounts: seq<int>, c: Counters)
    requires |amounts| >= 2
    ensures CurrentAverage(History(sum0, base0, amounts), c) == Ok(amounts[|amounts| - 1] as real)
  {
    var n := |amounts|;
    IntervalIsWindowMean(sum0, base0, amounts, n - 2, n - 1);
    var last := amounts[n - 1..n];
    assert last[..0] == [];
    assert Sum(last) == amounts[n - 1];
    var h := History(sum0, base0, amounts);
    assert AverageDelta(h[n - 2], h[n - 1]) * 1.0 == amounts[n - 1] as real;
    assert CurrentAverage(h, c) == Ok(AverageDelta(h[n - 2], h[n - 1]));
  }
}

=== FILE: registry.dfy ===
/** Discovery of resource types and their routes, over explicit descriptions
    of the loaded assemblies instead of reflection. */
module Registry {
  import opened Base
  import opened Router

  /** A public method of a type, with its `RESTRoute` attributes. */
  datatype MethodDesc = MethodDesc(name: string, isStatic: bool, routes: seq<RouteAttr>)

  /** A type: whether it is abstract, a strict subclass of `RESTResource`,
      sealed; the base URLs of its `RESTScope` attributes (none: unscoped);
      its public methods. */
  datatype TypeDesc = TypeDesc(
    name: string,
    isAbstract: bool,
    isResource: bool,
    isSealed: bool,
    scopes: seq<string>,
    methods: seq<MethodDesc>)

  datatype AssemblyDesc = AssemblyDesc(name: string, inGlobalCache: bool, types: seq<TypeDesc>)

  /** Both raise an `ArgumentException` from the constructor. */
  datatype RegistrationError = NotSealed(typeName: string) | DuplicateKey(typeName: string)

  /** Assemblies whose types are never scanned, by simple name. */
  const IgnoredAssemblies: seq<string> := ["vshost32", "Grapevine", "GrapevinePlus"]

  predicate Scanned(a: AssemblyDesc)
  {
    !a.inGlobalCache && a.name !in IgnoredAssemblies
  }

  /** The types of the scanned assemblies, in load order. */
  function ScannedTypes(assemblies: seq<AssemblyDesc>): (ts: seq<TypeDesc>)
    ensures forall t :: t in ts ==> exists a :: a in assemblies && Scanned(a) && t in a.types
    ensures forall a, t :: a in assemblies && Scanned(a) && t in a.types ==> t in ts
  {
    if |assemblies| == 0 then []
    else (if Scanned(assemblies[0]) then assemblies[0].types else [])
         + ScannedTypes(assemblies[1..])
  }

  /** A type the scan must deal with: a non-abstract resource subclass. */
  predicate Candidate(t: TypeDesc)
  {
    !t.isAbstract && t.isResource
  }

  /** A scope admits the server when it names its base URL or is the wildcard. */
  predicate Admits(scope: string, baseUrl: string)
  {
    scope == baseUrl || scope == "*"
  }

  predicate Known(reg: seq<TypeDesc>, name: string)
  {
    exists u :: u in reg && u.name == name
  }

  /** `Dictionary.Add` keyed by the type name: a second key throws. */
  function Add(reg: seq<TypeDesc>, t: TypeDesc): Result<seq<TypeDesc>, RegistrationError>
  {
    if Known(reg, t.name) then Err(DuplicateKey(t.name)) else Ok(reg + [t])
  }

  /** One add per admitting scope, in attribute order. */
  function AddPerScope(reg: seq<TypeDesc>, t: TypeDesc, scopes: seq<string>, baseUrl: string): Result<seq<TypeDesc>, RegistrationError>
    decreases |scopes|
  {
    if |scopes| == 0 then Ok(reg)
    else if Admits(scopes[0], baseUrl) then
      match Add(reg, t)
      case Err(e) => Err(e)
      case Ok(reg') => AddPerScope(reg', t, scopes[1..], baseUrl)
    else AddPerScope(reg, t, scopes[1..], baseUrl)
  }

  /** The body of the scan for one type. */
  function LoadType(reg: seq<TypeDesc>, t: TypeDesc, baseUrl: string): Result<seq<TypeDesc>, RegistrationError>
  {
    if !Candidate(t) then Ok(reg)
    else if !t.isSealed then Err(NotSealed(t.name))
    else if |t.scopes| > 0 then AddPerScope(reg, t, t.scopes, baseUrl)
    else Add(reg, t)
  }

  function LoadTypes(reg: seq<TypeDesc>, types: seq<TypeDesc>, baseUrl: string): Result<seq<TypeDesc>, RegistrationError>
    decreases |types|
  {
    if |types| == 0 then Ok(reg)
    else
      match LoadType(reg, types[0], baseUrl)
      case Err(e) => Err(e)
      case Ok(reg') => LoadTypes(reg', types[1..], baseUrl)
  }

  /** `LoadRestResources`: the registered resource types, in insertion order. */
  function LoadResources(assemblies: seq<AssemblyDesc>, baseUrl: string): (r: Result<seq<TypeDesc>, RegistrationError>)
    ensures r.Ok? <==> !HasUnsealed(ScannedTypes(assemblies)) && UniqueNames(Expected(ScannedTypes(assemblies), baseUrl))
    ensures r.Ok? ==> r.value == Expected(ScannedTypes(assemblies), baseUrl)
  {
    LoadTypesMeets([], ScannedTypes(assemblies), baseUrl);
    assert [] + Expected(ScannedTypes(assemblies), baseUrl) == Expected(ScannedTypes(assemblies), baseUrl);
    LoadTypes([], ScannedTypes(assemblies), baseUrl)
  }

  // ---------------------------------------------------------------------
  // The reference definition of what registration should produce.

  function CountAdmitting(scopes: seq<string>, baseUrl: string): nat
  {
    if |scopes| == 0 then 0
    else (if Admits(scopes[0], baseUrl) then 1 else 0) + CountAdmitting(scopes[1..], baseUrl)
  }

  function Repeat(t: TypeDesc, n: nat): seq<TypeDesc>
  {
    if n == 0 then [] else [t] + Repeat(t, n - 1)
  }

  /** The entries one type contributes: a sealed candidate once when unscoped,
      else once per admitting scope; anything else nothing. */
  function Copies(t: TypeDesc, baseUrl: string): seq<TypeDesc>
  {
    if Candidate(t) && t.isSealed then
      Repeat(t, if |t.scopes| == 0 then 1 else CountAdmitting(t.scopes, baseUrl))
    else []
  }

  function Expected(types: seq<TypeDesc>, baseUrl: string): seq<TypeDesc>
  {
    if |types| == 0 then [] else Copies(types[0], baseUrl) + Expected(types[1..], baseUrl)
  }

  predicate UniqueNames(reg: seq<TypeDesc>)
  {
    forall i, j :: 0 <= i < j < |reg| ==> reg[i].name != reg[j].name
  }

  predicate HasUnsealed(types: seq<TypeDesc>)
  {
    exists t :: t in types && Candidate(t) && !t.isSealed
  }

  lemma UniquePrefix(a: seq<TypeDesc>, b: seq<TypeDesc>)
    requires UniqueNames(a + b)
    ensures UniqueNames(a)
  {
    forall i, j | 0 <= i < j < |a|
      ensures a[i].name != a[j].name
    {
      assert (a + b)[i] == a[i] && (a + b)[j] == a[j];
    }
  }

  lemma UniqueAppendOne(reg: seq<TypeDesc>, t: TypeDesc)
    requires UniqueNames(reg)
    ensures UniqueNames(reg + [t]) <==> !Known(reg, t.name)
  {
    if !Known(reg, t.name) {
      forall i, j | 0 <= i < j < |reg + [t]|
        ensures (reg + [t])[i].name != (reg + [t])[j].name
      {
        if j == |reg| {
          assert (reg + [t])[i] == reg[i] && reg[i] in reg;
        } else {
          assert (reg + [t])[i] == reg[i] && (reg + [t])[j] == reg[j];
        }
      }
    } else {
      var u :| u in reg && u.name == t.name;
      var i :| 0 <= i < |reg| && reg[i] == u;
      assert (reg + [t])[i] == u && (reg + [t])[|reg|] == t;
    }
  }

  /** The scope loop adds the type once per admitting scope, and fails with a
      duplicate key exactly when that would repeat a name. */
  lemma {:induction false} AddPerScopeMeets(reg: seq<TypeDesc>, t: TypeDesc, scopes: seq<string>, baseUrl: string)
    requires UniqueNames(reg)
    ensures var n := CountAdmitting(scopes, baseUrl);
            AddPerScope(reg, t, scopes, baseUrl)
              == if UniqueNames(reg + Repeat(t, n)) then Ok(reg + Repeat(t, n)) else Err(DuplicateKey(t.name))
    decreases |scopes|
  {
    if |scopes| == 0 {
      assert reg + Repeat(t, 0) == reg;
    } else {
      var rest := scopes[1..];
      var m := CountAdmitting(rest, baseUrl);
      if Admits(scopes[0], baseUrl) {
        UniqueAppendOne(reg, t);
        assert reg + Repeat(t, m + 1) == (reg + [t]) + Repeat(t, m);
        if Known(reg, t.name) {
          UniquePrefixOfCopies(reg, t, m);
        } else {
          AddPerScopeMeets(reg + [t], t, rest, baseUrl);
        }
      } else {
        AddPerScopeMeets(reg, t, rest, baseUrl);
      }
    }
  }

  lemma UniquePrefixOfCopies(reg: seq<TypeDesc>, t: TypeDesc, m: nat)
    requires UniqueNames(reg) && Known(reg, t.name)
    ensures !UniqueNames((reg + [t]) + Repeat(t, m))
  {
    UniqueAppendOne(reg, t);
    if UniqueNames((reg + [t]) + Repeat(t, m)) {
      UniquePrefix(reg + [t], Repeat(t, m));
    }
  }

  /** The scan against the reference: it succeeds exactly when no candidate
      is unsealed and the expected entries have distinct names, and then it
      registers exactly those entries, in order. A `NotSealed` error names an
      unsealed candidate; a `DuplicateKey` error means some name repeats. */
  lemma {:induction false} LoadTypesMeets(reg: seq<TypeDesc>, types: seq<TypeDesc>, baseUrl: string)
    requires UniqueNames(reg)
    ensures LoadTypes(reg, types, baseUrl).Ok? <==>
              !HasUnsealed(types) && UniqueNames(reg + Expected(types, baseUrl))
    ensures LoadTypes(reg, types, baseUrl).Ok? ==>
              LoadTypes(reg, types, baseUrl).value == reg + Expected(types, baseUrl)
    ensures LoadTypes(reg, types, baseUrl).Err? && LoadTypes(reg, types, baseUrl).error.NotSealed? ==>
              exists t :: t in types && Candidate(t) && !t.isSealed
                          && t.name == LoadTypes(reg, types, baseUrl).error.typeName
    ensures LoadTypes(reg, types, baseUrl).Err? && LoadTypes(reg, types, baseUrl).error.DuplicateKey? ==>
              !UniqueNames(reg + Expected(types, baseUrl))
    decreases |types|
  {
    if |types| > 0 {
      var t, rest := types[0], types[1..];
      assert types == [t] + rest;
      var cs := Copies(t, baseUrl);
      assert reg + Expected(types, baseUrl) == (reg + cs) + Expected(rest, baseUrl);
      if Candidate(t) && t.isSealed {
        var n := if |t.scopes| == 0 then 1 else CountAdmitting(t.scopes, baseUrl);
        if |t.scopes| > 0 {
          AddPerScopeMeets(reg, t, t.scopes, baseUrl);
        } else {
          UniqueAppendOne(reg, t);
          assert Repeat(t, 1) == [t];
        }
        if UniqueNames(reg + cs) {
          LoadTypesMeets(reg + cs, rest, baseUrl);
        } else if UniqueNames((reg + cs) + Expected(rest, baseUrl)) {
          UniquePrefix(reg + cs, Expected(rest, baseUrl));
        }
      } else if Candidate(t) {
        assert HasUnsealed(types);
      } else {
        assert cs == [];
        assert reg + cs == reg;
        LoadTypesMeets(reg, rest, baseUrl);
      }
    }
  }

  /** The scan visits the assemblies in load order: splitting the assembly
      list splits the scanned types at the same point. */
  lemma {:induction false} ScannedTypesInLoadOrder(as1: seq<AssemblyDesc>, as2: seq<AssemblyDesc>)
    ensures ScannedTypes(as1 + as2) == ScannedTypes(as1) + ScannedTypes(as2)
    decreases |as1|
  {
    if |as1| > 0 {
      assert (as1 + as2)[0] == as1[0];
      assert (as1 + as2)[1..] == as1[1..] + as2;
      ScannedTypesInLoadOrder(as1[1..], as2);
      var head := if Scanned(as1[0]) then as1[0].types else [];
      AppendAssociates(head, ScannedTypes(as1[1..]), ScannedTypes(as2));
    } else {
      assert as1 + as2 == as2;
    }
  }

  /** One assembly contributes its types, in declaration order, exactly when it is scanned. */
  lemma ScannedOne(a: AssemblyDesc)
    ensures ScannedTypes([a]) == (if Scanned(a) then a.types else [])
  {
    assert [a][1..] == [];
    assert (if Scanned(a) then a.types else []) + [] == (if Scanned(a) then a.types else []);
  }

  // ---------------------------------------------------------------------
  // Routes.

  /** The route-carrying instance methods of one registered type. */
  function TypeRoutes(t: TypeDesc, ms: seq<MethodDesc>): (rs: seq<Route>)
    ensures forall r :: r in rs ==> r.resource == t.name && |r.attrs| > 0
    ensures forall r :: r in rs ==>
              exists m :: m in ms && !m.isStatic && |m.routes| > 0 && r == Route(t.name, m.name, m.routes)
    ensures forall m :: m in ms && !m.isStatic && |m.routes| > 0 ==> Route(t.name, m.name, m.routes) in rs
  {
    if |ms| == 0 then []
    else (if !ms[0].isStatic && |ms[0].routes| > 0 then [Route(t.name, ms[0].name, ms[0].routes)] else [])
         + TypeRoutes(t, ms[1..])
  }

  /** `LoadRestRoutes`: the routes of every registered type, in registration
      order. Every route names a registered resource, so looking up its
      instance by type name cannot miss. */
  function LoadRoutes(reg: seq<TypeDesc>): (rs: seq<Route>)
    ensures forall r :: r in rs ==> Known(reg, r.resource) && |r.attrs| > 0
    ensures forall r :: r in rs ==>
              exists t, m :: t in reg && m in t.methods && !m.isStatic && |m.routes| > 0
                             && r == Route(t.name, m.name, m.routes)
    ensures forall t, m :: t in reg && m in t.methods && !m.isStatic && |m.routes| > 0 ==>
              Route(t.name, m.name, m.routes) in rs
  {
    if |reg| == 0 then []
    else
      var head := TypeRoutes(reg[0], reg[0].methods);
      assert forall r :: r in head ==> reg[0] in reg && r.resource == reg[0].name;
      head + LoadRoutes(reg[1..])
  }

  /** The routes of a type follow its method order: splitting the method list
      splits the routes at the same point. */
  lemma {:induction false} TypeRoutesInMethodOrder(t: TypeDesc, ms1: seq<MethodDesc>, ms2: seq<MethodDesc>)
    ensures TypeRoutes(t, ms1 + ms2) == TypeRoutes(t, ms1) + TypeRoutes(t, ms2)
    decreases |ms1|
  {
    if |ms1| > 0 {
      assert (ms1 + ms2)[1..] == ms1[1..] + ms2;
      TypeRoutesInMethodOrder(t, ms1[1..], ms2);
      var head := if !ms1[0].isStatic && |ms1[0].routes| > 0 then [Route(t.name, ms1[0].name, ms1[0].routes)] else [];
      AppendAssociates(head, TypeRoutes(t, ms1[1..]), TypeRoutes(t, ms2));
    } else {
      assert ms1 + ms2 == ms2;
    }
  }

  /** The route table follows registration order: the routes of earlier
      resources come before those of later ones. */
  lemma {:induction false} LoadRoutesInRegistrationOrder(reg1: seq<TypeDesc>, reg2: seq<TypeDesc>)
    ensures LoadRoutes(reg1 + reg2) == LoadRoutes(reg1) + LoadRoutes(reg2)
    decreases |reg1|
  {
    if |reg1| > 0 {
      assert (reg1 + reg2)[0] == reg1[0];
      assert (reg1 + reg2)[1..] == reg1[1..] + reg2;
      LoadRoutesInRegistrationOrder(reg1[1..], reg2);
      var head := TypeRoutes(reg1[0], reg1[0].methods);
      AppendAssociates(head, LoadRoutes(reg1[1..]), LoadRoutes(reg2));
    } else {
      assert reg1 + reg2 == reg2;
    }
  }
}

=== FILE: router.dfy ===
/** Dispatch of one dequeued request: first-match routing over the route
    table, the GET-only static-file fallback, and the success and failure
    counters it updates. */
module Router {
  import opened Base
  import opened Text
  import opened Metrics

  /** An accepted request: HTTP method, raw URL and the declared content
      length (-1 when the request did not declare one). */
  datatype Request = Request(verb: string, rawUrl: string, contentLength: int)

  /** One `RESTRoute` attribute: the method's enum name and the path pattern. */
  datatype RouteAttr = RouteAttr(verb: string, pathInfo: string)

  /** A handler method of a registered resource type with its route attributes. */
  datatype Route = Route(resource: string, handler: string, attrs: seq<RouteAttr>)

  /** The regular-expression match of a path against a pattern. */
  type Matcher = (string, string) -> bool

  /** The file-system operations the static fallback consults. */
  datatype FileSystem = FileSystem(
    separator: char,
    combine: (string, string) -> string,
    isFile: string -> bool,
    isDir: string -> bool)

  /** Everything dispatch reads from the server. */
  datatype Env = Env(routes: seq<Route>, matches: Matcher, webRoot: Option<string>,
                     dirIndex: string, fs: FileSystem)

  /** Whether the route handler and the file response throw when invoked. */
  datatype Effects = Effects(handlerThrows: bool, sendThrows: bool)

  /** What the client is sent. */
  datatype Response = Invoked(route: nat) | FileSent(path: string) | NotFound | ServerError

  /** The path routes are matched against: the raw URL before its first `?`. */
  function RequestPath(rawUrl: string): string
  {
    Before(rawUrl, '?')
  }

  /** Some attribute of `route` matches the path, and its method equals the
      upper-cased request method. */
  predicate Accepts(route: Route, path: string, verb: string, matches: Matcher)
  {
    exists a :: a in route.attrs && matches(path, a.pathInfo) && ToUpper(verb) == a.verb
  }

  function FindFrom(routes: seq<Route>, k: nat, path: string, verb: string, matches: Matcher): (r: Option<nat>)
    requires k <= |routes|
    ensures r.Some? ==> k <= r.value < |routes| && Accepts(routes[r.value], path, verb, matches)
    ensures r.Some? ==> forall j :: k <= j < r.value ==> !Accepts(routes[j], path, verb, matches)
    ensures r.None? ==> forall j :: k <= j < |routes| ==> !Accepts(routes[j], path, verb, matches)
    decreases |routes| - k
  {
    if k == |routes| then None
    else if Accepts(routes[k], path, verb, matches) then Some(k)
    else FindFrom(routes, k + 1, path, verb, matches)
  }

  /** `FirstOrDefault` over the route table: the first route in table order
      that accepts the request, if any. */
  function FindRoute(routes: seq<Route>, path: string, verb: string, matches: Matcher): (r: Option<nat>)
    ensures r.Some? ==> r.value < |routes| && Accepts(routes[r.value], path, verb, matches)
    ensures r.Some? ==> forall j :: 0 <= j < r.value ==> !Accepts(routes[j], path, verb, matches)
    ensures r.None? <==> forall j :: 0 <= j < |routes| ==> !Accepts(routes[j], path, verb, matches)
  {
    FindFrom(routes, 0, path, verb, matches)
  }

  /** The selected route is unique: no other index is both accepting and
      preceded only by non-accepting routes. */
  lemma FirstMatchIsUnique(routes: seq<Route>, path: string, verb: string, matches: Matcher, i: nat)
    requires i < |routes| && Accepts(routes[i], path, verb, matches)
    requires forall j :: 0 <= j < i ==> !Accepts(routes[j], path, verb, matches)
    ensures FindRoute(routes, path, verb, matches) == Some(i)
  {
  }

  /** Routing ignores the case of the request method. */
  lemma MethodCaseIgnored(routes: seq<Route>, path: string, verb: string, matches: Matcher)
    ensures FindRoute(routes, path, ToUpper(verb), matches) == FindRoute(routes, path, verb, matches)
  {
    ToUpperIdempotent(verb);
    assert forall r: Route :: Accepts(r, path, ToUpper(verb), matches) == Accepts(r, path, verb, matches);
    FindRouteCongruent(routes, path, ToUpper(verb), verb, matches);
  }

  lemma FindRouteCongruent(routes: seq<Route>, path: string, m1: string, m2: string, matches: Matcher)
    requires forall r: Route :: Accepts(r, path, m1, matches) == Accepts(r, path, m2, matches)
    ensures FindRoute(routes, path, m1, matches) == FindRoute(routes, path, m2, matches)
  {
    var r1 := FindRoute(routes, path, m1, matches);
    if r1.Some? {
      FirstMatchIsUnique(routes, path, m2, matches, r1.value);
    }
  }

  // ---------------------------------------------------------------------
  // Static files.

  /** The part of the raw URL a file name is taken from: before the first `?`
      when there is one, otherwise before the first `#`. */
  function UrlHead(rawUrl: string): (r: string)
    ensures r <= rawUrl
    ensures '?' !in r
    ensures '?' !in rawUrl ==> '#' !in r
    ensures |r| < |rawUrl| ==> rawUrl[|r|] == (if '?' in rawUrl then '?' else '#')
  {
    if '?' in rawUrl then Before(rawUrl, '?') else Before(rawUrl, '#')
  }

  /** Dispatch errors all surface as one caught exception. */
  datatype Fault = SubstringOutOfRange

  /** The file name relative to the webroot: the URL head with every `/`
      turned into the directory separator and its first character dropped;
      `Substring(1)` throws on an empty head. */
  function RelativeName(rawUrl: string, sep: char): (r: Result<string, Fault>)
    ensures r.Err? <==> |UrlHead(rawUrl)| == 0
    ensures r.Ok? ==> |r.value| + 1 == |UrlHead(rawUrl)|
    ensures r.Ok? ==> forall i :: 0 <= i < |r.value| ==>
              r.value[i] == (if UrlHead(rawUrl)[i + 1] == '/' then sep else UrlHead(rawUrl)[i + 1])
  {
    var head := Replace(UrlHead(rawUrl), '/', sep);
    if |head| < 1 then Err(SubstringOutOfRange) else Ok(head[1..])
  }

  /** The URL `/a/b?q` names the file `a\b` on a system whose separator
      is a backslash. */
  lemma RelativeNameWithQuery()
    ensures RelativeName("/a/b?q", '\\') == Ok("a\\b")
  {
    var u := "/a/b?q";
    assert u[4] == '?' && u[..4] == "/a/b";
    BeforeUnique(u, '?', "/a/b");
    var t := Replace("/a/b", '/', '\\');
    assert t[0] == '\\' && t[1] == 'a' && t[2] == '\\' && t[3] == 'b';
    assert t[1..] == "a\\b";
  }

  /** A fragment is cut when there is no query: `/#top` names the webroot. */
  lemma RelativeNameWithFragment()
    ensures RelativeName("/#top", '\\') == Ok("")
  {
    var u := "/#top";
    assert '?' !in u;
    BeforeUnique(u, '#', "/");
  }

  /** A URL that starts with its query leaves nothing to drop the first
      character of, and the derivation throws. */
  lemma RelativeNameOfBareQuery()
    ensures RelativeName("?x", '\\') == Err(SubstringOutOfRange)
  {
    BeforeUnique("?x", '?', "");
  }

  /** The existing file the name resolves to under the webroot: the path
      itself when it is a file, or the directory index inside it when it is a
      directory holding that file. */
  function Resolve(fs: FileSystem, webRoot: string, dirIndex: string, name: string): (r: Option<string>)
    ensures r.Some? ==> fs.isFile(r.value)
    ensures r.Some? ==> r.value == fs.combine(webRoot, name)
                        || (fs.isDir(fs.combine(webRoot, name))
                            && r.value == fs.combine(fs.combine(webRoot, name), dirIndex))
    ensures r.None? <==> !fs.isFile(fs.combine(webRoot, name))
                         && !(fs.isDir(fs.combine(webRoot, name))
                              && fs.isFile(fs.combine(fs.combine(webRoot, name), dirIndex)))
  {
    var path := fs.combine(webRoot, name);
    if fs.isFile(path) then Some(path)
    else if fs.isDir(path) then
      var index := fs.combine(path, dirIndex);
      if fs.isFile(index) then Some(index) else None
    else None
  }

  /** `GetFilePath`: a faulting name derivation, an existing file, or null. */
  function GetFilePath(env: Env, webRoot: string, rawUrl: string): (r: Result<Option<string>, Fault>)
    ensures r.Err? <==> RelativeName(rawUrl, env.fs.separator).Err?
    ensures r.Ok? ==> r.value == Resolve(env.fs, webRoot, env.dirIndex, RelativeName(rawUrl, env.fs.separator).value)
    ensures r.Ok? && r.value.Some? ==> env.fs.isFile(r.value.value)
  {
    match RelativeName(rawUrl, env.fs.separator)
    case Err(e) => Err(e)
    case Ok(name) => Ok(Resolve(env.fs, webRoot, env.dirIndex, name))
  }

  // ---------------------------------------------------------------------
  // Dispatch.

  function Succeed(c: Counters): Counters { c.(succeeded := c.succeeded + 1) }
  function Fail(c: Counters): Counters { c.(failed := c.failed + 1) }

  /** `ProcessRequest`. A matched route bumps the success counter before its
      handler runs; a handler that throws then also bumps the failure
      counter. An unmatched GET with a webroot tries the static fallback, which
      bumps success before sending the file. Whatever leaves the request
      unserved bumps the failure counter once and answers 404, or 500 when an
      exception was caught. */
  function ProcessRequest(env: Env, c: Counters, req: Request, fx: Effects): (r: (Counters, Response))
    ensures r.0 == c.(succeeded := r.0.succeeded, failed := r.0.failed)
    ensures var m := FindRoute(env.routes, RequestPath(req.rawUrl), req.verb, env.matches);
            m.Some? ==> r.0.succeeded == c.succeeded + 1
                        && (fx.handlerThrows ==> r.1 == ServerError && r.0.failed == c.failed + 1)
                        && (!fx.handlerThrows ==> r.1 == Invoked(m.value) && r.0.failed == c.failed)
    ensures var m := FindRoute(env.routes, RequestPath(req.rawUrl), req.verb, env.matches);
            m.None? && (ToUpper(req.verb) != "GET" || env.webRoot.None?) ==>
              r == (Fail(c), NotFound)
    ensures var m := FindRoute(env.routes, RequestPath(req.rawUrl), req.verb, env.matches);
            m.None? && ToUpper(req.verb) == "GET" && env.webRoot.Some? ==>
              match GetFilePath(env, env.webRoot.value, req.rawUrl)
              case Err(_) => r == (Fail(c), ServerError)
              case Ok(None) => r == (Fail(c), NotFound)
              case Ok(Some(p)) =>
                r.0.succeeded == c.succeeded + 1
                && (fx.sendThrows ==> r.1 == ServerError && r.0.failed == c.failed + 1)
                && (!fx.sendThrows ==> r.1 == FileSent(p) && r.0.failed == c.failed)
  {
    var path := RequestPath(req.rawUrl);
    match FindRoute(env.routes, path, req.verb, env.matches)
    case Some(i) =>
      if fx.handlerThrows then (Fail(Succeed(c)), ServerError) else (Succeed(c), Invoked(i))
    case None =>
      if ToUpper(req.verb) == "GET" && env.webRoot.Some? then
        match GetFilePath(env, env.webRoot.value, req.rawUrl)
        case Err(_) => (Fail(c), ServerError)
        case Ok(None) => (Fail(c), NotFound)
        case Ok(Some(p)) =>
          if fx.sendThrows then (Fail(Succeed(c)), ServerError) else (Succeed(c), FileSent(p))
      else (Fail(c), NotFound)
  }

  /** A request no route accepts, when there is no static fallback to try,
      is a 404 that adds one failure and nothing else. */
  lemma UnroutedIsNotFound(env: Env, c: Counters, req: Request, fx: Effects)
    requires FindRoute(env.routes, RequestPath(req.rawUrl), req.verb, env.matches).None?
    requires env.webRoot.None? || ToUpper(req.verb) != "GET"
    ensures ProcessRequest(env, c, req, fx) == (c.(failed := c.failed + 1), NotFound)
  {
  }

  /** An unrouted GET whose file lookup under the webroot finds nothing is a
      404 that adds exactly one failure. */
  lemma MissingFileIsNotFound(env: Env, c: Counters, req: Request, fx: Effects, name: string)
    requires FindRoute(env.routes, RequestPath(req.rawUrl), req.verb, env.matches).None?
    requires ToUpper(req.verb) == "GET" && env.webRoot.Some?
    requires RelativeName(req.rawUrl, env.fs.separator) == Ok(name)
    requires Resolve(env.fs, env.webRoot.value, env.dirIndex, name).None?
    ensures ProcessRequest(env, c, req, fx) == (c.(failed := c.failed + 1), NotFound)
  {
    assert GetFilePath(env, env.webRoot.value, req.rawUrl) == Ok(None);
  }

  /** Every request is counted: the success and failure counters each grow by
      at most one and together by at least one; both grow exactly when the
      request was counted a success and then failed with a 500; and a 404
      leaves success unchanged and adds exactly one failure. */
  lemma Accounting(env: Env, c: Counters, req: Request, fx: Effects)
    ensures var (c', resp) := ProcessRequest(env, c, req, fx);
            var ds := c'.succeeded - c.succeeded;
            var df := c'.failed - c.failed;
            0 <= ds <= 1 && 0 <= df <= 1 && ds + df >= 1
            && (resp == NotFound ==> ds == 0 && df == 1)
            && ((resp.Invoked? || resp.FileSent?) <==> ds == 1 && df == 0)
            && (ds == 1 && df == 1 ==> resp == ServerError)
  {
  }

  /** Serving a batch in order with handlers and file responses that never throw. */
  function ServeAll(env: Env, c: Counters, reqs: seq<Request>): Counters
    decreases |reqs|
  {
    if |reqs| == 0 then c
    else ServeAll(env, ProcessRequest(env, c, reqs[0], Effects(false, false)).0, reqs[1..])
  }

  /** How many requests of the batch some route accepts. */
  function Routed(env: Env, reqs: seq<Request>): nat
  {
    if |reqs| == 0 then 0
    else
      (if FindRoute(env.routes, RequestPath(reqs[0].rawUrl), reqs[0].verb, env.matches).Some? then 1 else 0)
      + Routed(env, reqs[1..])
  }

  /** Without a webroot, a batch adds one success per routed request and one
      failure per unrouted one, and no other counter moves. */
  lemma {:induction false} ServeAllTally(env: Env, c: Counters, reqs: seq<Request>)
    requires env.webRoot.None?
    ensures ServeAll(env, c, reqs).succeeded == c.succeeded + Routed(env, reqs)
    ensures ServeAll(env, c, reqs).failed == c.failed + |reqs| - Routed(env, reqs)
    ensures ServeAll(env, c, reqs) == c.(succeeded := ServeAll(env, c, reqs).succeeded,
                                         failed := ServeAll(env, c, reqs).failed)
    decreases |reqs|
  {
    if |reqs| > 0 {
      ServeAllTally(env, ProcessRequest(env, c, reqs[0], Effects(false, false)).0, reqs[1..]);
    }
  }
}

=== FILE: server.dfy ===
/** The server as a sequential state machine: construction, the lifecycle
    operations, one turn of the listener loop and one turn of a worker, each
    an atomic step at the granularity of the queue lock. */
module Server {
  import opened Base
  import opened Text
  import opened Configuration
  import opened Metrics
  import opened WorkQueue
  import opened Router
  import opened Registry

  /** A worker-thread slot: null until the first `Start`, then a thread that
      is running its loop or has left it. */
  datatype Slot = Unstarted | Running | Exited

  /** `listenerStarted`: the listener thread object has been started;
      `transportOpen`: the HTTP listener accepts connections. */
  datatype Server = Server(
    settings: Settings,
    listening: bool,
    listenerStarted: bool,
    transportOpen: bool,
    workers: seq<Slot>,
    counters: Counters,
    postSamples: seq<AvgSample>,
    rateSamples: seq<RateSample>,
    channel: Channel<Request>,
    resources: seq<TypeDesc>,
    routes: seq<Route>)

  datatype ServerError =
    | StateFailure(state: StateError)
    | RegistrationFailure(registration: RegistrationError)
    | TransportFailure
    | ThreadAlreadyStarted
    | NullWorker

  /** The server after an operation, with the exception it raised, if any. */
  datatype Outcome = Outcome(server: Server, error: Option<ServerError>)

  predicate AllSlots(workers: seq<Slot>, s: Slot)
  {
    forall k :: 0 <= k < |workers| ==> workers[k] == s
  }

  /** The constructor. `stored` holds the values the system counter store
      already has for this port's counters; they are only reset by `Start`. */
  function Create(host: string, port: string, protocol: string, dirIndex: string,
                  webRoot: Option<string>, maxThreads: int, defaultRoot: string,
                  usable: string -> bool, assemblies: seq<AssemblyDesc>, stored: Counters): (r: Result<Server, ServerError>)
    ensures maxThreads < 1 ==> r == Err(StateFailure(MaxThreadsBelowOne(maxThreads)))
    ensures r.Ok? ==> |r.value.workers| == maxThreads && AllSlots(r.value.workers, Unstarted)
    ensures r.Ok? ==> !r.value.listening && !r.value.listenerStarted && !r.value.transportOpen
    ensures r.Ok? ==> r.value.channel == Channel([], false, false)
    ensures r.Ok? ==> r.value.counters == stored && r.value.postSamples == [] && r.value.rateSamples == []
    ensures r.Ok? ==> forall rt :: rt in r.value.routes ==> Known(r.value.resources, rt.resource)
    ensures r.Ok? ==>
              && Configuration.Create(host, port, protocol, dirIndex, webRoot, maxThreads, defaultRoot, usable).Ok?
              && var c := Configuration.Create(host, port, protocol, dirIndex, webRoot, maxThreads, defaultRoot, usable).value;
              && r.value.settings == c
              && LoadResources(assemblies, BaseUrl(c)).Ok?
              && r.value.resources == LoadResources(assemblies, BaseUrl(c)).value
              && r.value.routes == LoadRoutes(r.value.resources)
    ensures maxThreads >= 1 ==>
              var c := Configuration.Create(host, port, protocol, dirIndex, webRoot, maxThreads, defaultRoot, usable).value;
              (r.Ok? <==> LoadResources(assemblies, BaseUrl(c)).Ok?)
              && (r.Err? ==> r.error == RegistrationFailure(LoadResources(assemblies, BaseUrl(c)).error))
  {
    match Configuration.Create(host, port, protocol, dirIndex, webRoot, maxThreads, defaultRoot, usable)
    case Err(e) => Err(StateFailure(e))
    case Ok(c) =>
      match LoadResources(assemblies, BaseUrl(c))
      case Err(e) => Err(RegistrationFailure(e))
      case Ok(reg) =>
        Ok(Server(c, false, false, false, seq(c.maxThreads, _ => Unstarted), stored, [], [],
                  Channel([], false, false), reg, LoadRoutes(reg)))
  }

  // ---------------------------------------------------------------------
  // Property setters on a server.

  function Apply(s: Server, r: Result<Settings, StateError>): Outcome
  {
    match r
    case Ok(c) => Outcome(s.(settings := c), None)
    case Err(e) => Outcome(s, Some(StateFailure(e)))
  }

  /** Setting `MaxThreads` changes the property but never the worker slots,
      which were sized by the constructor. */
  function SetMaxThreads(s: Server, value: int): (o: Outcome)
    ensures o.server.workers == s.workers
    ensures o.error.None? <==> !s.listening && value >= 1
    ensures o.error.None? ==> o.server == s.(settings := s.settings.(maxThreads := value))
    ensures o.error.Some? ==> o.server == s
  {
    Apply(s, Configuration.SetMaxThreads(s.settings, s.listening, value))
  }

  function SetHost(s: Server, value: string): (o: Outcome)
    ensures o.error.None? <==> !s.listening
    ensures o.error.None? ==> o.server == s.(settings := s.settings.(host := value))
    ensures o.error.Some? ==> o.server == s
  {
    Apply(s, Configuration.SetHost(s.settings, s.listening, value))
  }

  function SetPort(s: Server, value: string): (o: Outcome)
    ensures o.error.None? <==> !s.listening
    ensures o.error.None? ==> o.server == s.(settings := s.settings.(port := value))
    ensures o.error.Some? ==> o.server == s
  {
    Apply(s, Configuration.SetPort(s.settings, s.listening, value))
  }

  function SetProtocol(s: Server, value: string): (o: Outcome)
    ensures o.error.None? <==> !s.listening
    ensures o.error.None? ==> o.server == s.(settings := s.settings.(protocol := value))
    ensures o.error.Some? ==> o.server == s
  {
    Apply(s, Configuration.SetProtocol(s.settings, s.listening, value))
  }

  /** While the server listens its prefix cannot change. */
  lemma PrefixFrozenWhileListening(s: Server, host: string, port: string, protocol: string)
    requires s.listening
    ensures BaseUrl(SetHost(s, host).server.settings) == BaseUrl(s.settings)
    ensures BaseUrl(SetPort(s, port).server.settings) == BaseUrl(s.settings)
    ensures BaseUrl(SetProtocol(s, protocol).server.settings) == BaseUrl(s.settings)
  {
  }

  // ---------------------------------------------------------------------
  // Lifecycle.

  /** `Start` as the source writes it. On a listening server it does nothing.
      Otherwise it zeroes all seven counters (the before-start hook runs next;
      its exceptions are swallowed), sets listening, opens the transport
      (`bindOk` says whether that succeeds), starts the listener thread
      created by the constructor, and fills every slot with a new running
      worker. Any exception resets listening and is rethrown. Starting the
      listener thread a second time throws. */
  function StartAsWritten(s: Server, bindOk: bool): (o: Outcome)
    ensures s.listening ==> o == Outcome(s, None)
    ensures !s.listening ==> o.server.counters == Zero
    ensures !s.listening ==> (o.error.None? <==> bindOk && !s.listenerStarted)
    ensures !s.listening && bindOk && s.listenerStarted ==> o.error == Some(ThreadAlreadyStarted)
    ensures o.error.Some? ==> !o.server.listening && o.server.workers == s.workers
    ensures o.error.None? ==> o.server.listening
    ensures !s.listening && o.error.None? ==> AllSlots(o.server.workers, Running)
    ensures |o.server.workers| == |s.workers|
    ensures o.server.postSamples == s.postSamples && o.server.rateSamples == s.rateSamples
    ensures o.server.channel == s.channel
    ensures !s.listening && !bindOk ==> o.error == Some(TransportFailure)
    ensures !s.listening && !bindOk ==>
              o.server.listenerStarted == s.listenerStarted && o.server.transportOpen == s.transportOpen
    ensures !s.listening && bindOk && s.listenerStarted ==> o.server.transportOpen
    ensures o.server == s.(counters := o.server.counters, listening := o.server.listening,
                           listenerStarted := o.server.listenerStarted, transportOpen := o.server.transportOpen,
                           workers := o.server.workers)
    ensures !s.listening && o.error.None? ==> o.server.listenerStarted && o.server.transportOpen
  {
    if s.listening then Outcome(s, None)
    else
      var reset := s.(counters := Zero, listening := true);
      if !bindOk then Outcome(reset.(listening := false), Some(TransportFailure))
      else if s.listenerStarted then
        Outcome(reset.(listening := false, transportOpen := true), Some(ThreadAlreadyStarted))
      else
        Outcome(reset.(transportOpen := true, listenerStarted := true,
                       workers := seq(|s.workers|, _ => Running)), None)
  }

  /** The corrected `Start`: it creates a fresh listener thread each time and
      clears the stop event, so a stopped server can be started again. */
  function Start(s: Server, bindOk: bool): (o: Outcome)
    ensures s.listening ==> o == Outcome(s, None)
    ensures !s.listening ==> o.server.counters == Zero
    ensures !s.listening ==> (o.error.None? <==> bindOk)
    ensures !s.listening && !bindOk ==> o.error == Some(TransportFailure)
    ensures !s.listening && !bindOk ==>
              o.server.listenerStarted == s.listenerStarted && o.server.transportOpen == s.transportOpen
              && o.server.channel == s.channel
    ensures o.error.Some? ==> !o.server.listening && o.server.workers == s.workers
    ensures o.error.None? ==> o.server.listening
    ensures !s.listening && bindOk ==> AllSlots(o.server.workers, Running) && !o.server.channel.stop
    ensures |o.server.workers| == |s.workers|
    ensures o.server.postSamples == s.postSamples && o.server.rateSamples == s.rateSamples
    ensures o.server.channel.items == s.channel.items && o.server.channel.ready == s.channel.ready
    ensures o.server == s.(counters := o.server.counters, listening := o.server.listening,
                           listenerStarted := o.server.listenerStarted, transportOpen := o.server.transportOpen,
                           workers := o.server.workers, channel := o.server.channel)
    ensures !s.listening && o.error.None? ==> o.server.listenerStarted && o.server.transportOpen
  {
    if s.listening then Outcome(s, None)
    else
      var reset := s.(counters := Zero, listening := true);
      if !bindOk then Outcome(reset.(listening := false), Some(TransportFailure))
      else
        Outcome(reset.(transportOpen := true, listenerStarted := true,
                       channel := s.channel.(stop := false),
                       workers := seq(|s.workers|, _ => Running)), None)
  }

  /** The first half of `Stop`: the before-stop hook (exceptions swallowed),
      then the stop event is set. */
  function SignalStop(s: Server): (r: Server)
    ensures r.channel.stop && r.channel.items == s.channel.items && r.channel.ready == s.channel.ready
    ensures r == s.(channel := r.channel)
  {
    s.(channel := s.channel.(stop := true))
  }

  /** Where the joins at the end of `Stop` stand. */
  datatype JoinState = Waiting(slot: nat) | Finished(outcome: Outcome)

  function FirstNot(workers: seq<Slot>, k: nat, done: set<Slot>): (r: Option<nat>)
    requires k <= |workers|
    ensures r.Some? ==> k <= r.value < |workers| && workers[r.value] !in done
    ensures r.Some? ==> forall j :: k <= j < r.value ==> workers[j] in done
    ensures r.None? ==> forall j :: k <= j < |workers| ==> workers[j] in done
    decreases |workers| - k
  {
    if k == |workers| then None
    else if workers[k] !in done then Some(k)
    else FirstNot(workers, k + 1, done)
  }

  function Closed(s: Server): Server
  {
    s.(transportOpen := false, listening := false)
  }

  /** The second half of `Stop` as the source writes it: the slots are
      joined in order, a running worker is waited for, and a null slot
      throws; once all are joined the transport closes and listening ends. */
  function JoinAsWritten(s: Server): (j: JoinState)
    ensures j.Waiting? ==> j.slot < |s.workers| && s.workers[j.slot] == Running
    ensures j.Finished? && j.outcome.error.None? ==> AllSlots(s.workers, Exited)
    ensures j.Finished? && j.outcome.error.None? ==> j.outcome.server == Closed(s)
    ensures j.Finished? && j.outcome.error.Some? ==>
              j.outcome == Outcome(s, Some(NullWorker)) && Unstarted in s.workers
    ensures AllSlots(s.workers, Exited) ==> j == Finished(Outcome(Closed(s), None))
  {
    match FirstNot(s.workers, 0, {Exited})
    case None => Finished(Outcome(Closed(s), None))
    case Some(k) =>
      if s.workers[k] == Running then Waiting(k)
      else
        assert s.workers[k] == Unstarted && s.workers[k] in s.workers;
        Finished(Outcome(s, Some(NullWorker)))
  }

  /** The corrected joins: slots that were never started are skipped. */
  function Join(s: Server): (j: JoinState)
    ensures j.Waiting? ==> j.slot < |s.workers| && s.workers[j.slot] == Running
    ensures j.Finished? <==> Running !in s.workers
    ensures j.Finished? ==> j.outcome == Outcome(Closed(s), None)
  {
    match FirstNot(s.workers, 0, {Exited, Unstarted})
    case None => Finished(Outcome(Closed(s), None))
    case Some(k) =>
      assert s.workers[k] == Running;
      Waiting(k)
  }

  // ---------------------------------------------------------------------
  // The listener loop.

  /** The amount a POST adds to the payload sum: its content length cast to
      a 32-bit int, skipped when that reads -1. */
  function Contribution(contentLength: int): int
  {
    var length := ToInt32(contentLength);
    if length != -1 then length else 0
  }

  /** Declared lengths that fit in an int are added as they are; an
      undeclared length adds nothing; a 4 GiB - 1 byte payload casts to -1
      and is skipped too, while a 2 GiB one wraps to a negative amount. */
  lemma ContributionCases(contentLength: int)
    ensures 0 <= contentLength < TwoTo31 ==> Contribution(contentLength) == contentLength
    ensures Contribution(-1) == 0
    ensures Contribution(TwoTo32 - 1) == 0
    ensures Contribution(TwoTo31) == -TwoTo31
  {
  }

  /** One turn of `HandleRequests` followed by `QueueRequest`, for an
      accepted request arriving at time `now`. The method is compared
      exactly: only `GET` and `POST` in upper case are counted. */
  function ListenerStep(s: Server, req: Request, now: real): (r: Server)
    ensures !s.listening ==> r == s
    ensures s.listening ==> r.channel == Enqueue(s.channel, req)
    ensures s.listening ==> r.counters.gets == s.counters.gets + (if req.verb == "GET" then 1 else 0)
    ensures s.listening ==> r.counters.posts == s.counters.posts + (if req.verb == "POST" then 1 else 0)
    ensures s.listening ==> r.counters.postBase == s.counters.postBase + (if req.verb == "POST" then 1 else 0)
    ensures s.listening ==>
              r.counters.postBytes
                == s.counters.postBytes + (if req.verb == "POST" then Contribution(req.contentLength) else 0)
    ensures s.listening ==> r.counters.requests == s.counters.requests + 1
    ensures s.listening ==>
              r.postSamples
                == s.postSamples + (if req.verb == "POST" then [AvgSample(r.counters.postBytes, r.counters.postBase)] else [])
    ensures s.listening ==> r.rateSamples == s.rateSamples + [RateSample(r.counters.requests, now)]
    ensures r.counters.succeeded == s.counters.succeeded && r.counters.failed == s.counters.failed
    ensures r == s.(counters := r.counters, postSamples := r.postSamples,
                    rateSamples := r.rateSamples, channel := r.channel)
  {
    if !s.listening then s
    else
      var c0 := s.counters;
      var c1 := if req.verb == "GET" then c0.(gets := c0.gets + 1) else c0;
      var c2 := if req.verb == "POST"
                then c1.(posts := c1.posts + 1, postBytes := c1.postBytes + Contribution(req.contentLength),
                         postBase := c1.postBase + 1)
                else c1;
      var posts := if req.verb == "POST" then s.postSamples + [AvgSample(c2.postBytes, c2.postBase)]
                   else s.postSamples;
      var c3 := c2.(requests := c2.requests + 1);
      s.(counters := c3, postSamples := posts, channel := Enqueue(s.channel, req),
         rateSamples := s.rateSamples + [RateSample(c3.requests, now)])
  }

  /** An accepted request and the time it was queued. */
  datatype Arrival = Arrival(req: Request, time: real)

  function ListenAll(s: Server, arrivals: seq<Arrival>): Server
    decreases |arrivals|
  {
    if |arrivals| == 0 then s
    else ListenAll(ListenerStep(s, arrivals[0].req, arrivals[0].time), arrivals[1..])
  }

  function Requests(arrivals: seq<Arrival>): (rs: seq<Request>)
    ensures |rs| == |arrivals|
    ensures forall k :: 0 <= k < |rs| ==> rs[k] == arrivals[k].req
  {
    if |arrivals| == 0 then [] else [arrivals[0].req] + Requests(arrivals[1..])
  }

  function CountVerb(arrivals: seq<Arrival>, verb: string): nat
  {
    if |arrivals| == 0 then 0
    else (if arrivals[0].req.verb == verb then 1 else 0) + CountVerb(arrivals[1..], verb)
  }

  /** What the POSTs among the arrivals add to the payload sum, in order. */
  function Amounts(arrivals: seq<Arrival>): seq<int>
  {
    if |arrivals| == 0 then []
    else (if arrivals[0].req.verb == "POST" then [Contribution(arrivals[0].req.contentLength)] else [])
         + Amounts(arrivals[1..])
  }

  /** A run of the listener touches only the counters, the two histories
      and the queue, and never the success and failure counters. */
  lemma {:induction false} ListenAllFrame(s: Server, arrivals: seq<Arrival>)
    requires s.listening
    ensures var r := ListenAll(s, arrivals);
            && r == s.(counters := r.counters, postSamples := r.postSamples,
                       rateSamples := r.rateSamples, channel := r.channel)
            && r.counters.succeeded == s.counters.succeeded && r.counters.failed == s.counters.failed
            && |r.rateSamples| == |s.rateSamples| + |arrivals|
    decreases |arrivals|
  {
    if |arrivals| > 0 {
      ListenAllFrame(ListenerStep(s, arrivals[0].req, arrivals[0].time), arrivals[1..]);
    }
  }

  /** A run of the listener queues every arrival, in arrival order, and
      leaves the ready event set. */
  lemma {:induction false} ListenAllQueues(s: Server, arrivals: seq<Arrival>)
    requires s.listening
    ensures var r := ListenAll(s, arrivals);
            && r.channel.items == s.channel.items + Requests(arrivals)
            && (|arrivals| > 0 ==> r.channel.ready)
            && r.channel.stop == s.channel.stop
    decreases |arrivals|
  {
    if |arrivals| > 0 {
      var a, rest := arrivals[0], arrivals[1..];
      var s1 := ListenerStep(s, a.req, a.time);
      StepQueues(s, a);
      ListenAllQueues(s1, rest);
      assert Requests(arrivals) == [a.req] + Requests(rest);
      AppendAssociates(s.channel.items, [a.req], Requests(rest));
    } else {
      assert s.channel.items + [] == s.channel.items;
    }
  }

  /** One listener step appends its request to the queue and announces it. */
  lemma StepQueues(s: Server, a: Arrival)
    requires s.listening
    ensures var s1 := ListenerStep(s, a.req, a.time);
            && s1.listening
            && s1.channel.items == s.channel.items + [a.req]
            && s1.channel.ready && s1.channel.stop == s.channel.stop
  {
  }

  /** A run of the listener counts the GETs, the POSTs and all requests. */
  lemma {:induction false} ListenAllCounts(s: Server, arrivals: seq<Arrival>)
    requires s.listening
    ensures var r := ListenAll(s, arrivals);
            && r.counters.gets == s.counters.gets + CountVerb(arrivals, "GET")
            && r.counters.posts == s.counters.posts + CountVerb(arrivals, "POST")
            && r.counters.requests == s.counters.requests + |arrivals|
    decreases |arrivals|
  {
    if |arrivals| > 0 {
      ListenAllCounts(ListenerStep(s, arrivals[0].req, arrivals[0].time), arrivals[1..]);
    }
  }

  /** A run of the listener adds the POST amounts to the payload sum and
      one per POST to its base. */
  lemma {:induction false} ListenAllSums(s: Server, arrivals: seq<Arrival>)
    requires s.listening
    ensures var r := ListenAll(s, arrivals);
            && r.counters.postBase == s.counters.postBase + |Amounts(arrivals)|
            && r.counters.postBytes == s.counters.postBytes + Sum(Amounts(arrivals))
    decreases |arrivals|
  {
    if |arrivals| > 0 {
      var a, rest := arrivals[0], arrivals[1..];
      var s1 := ListenerStep(s, a.req, a.time);
      assert ListenAll(s, arrivals) == ListenAll(s1, rest);
      ListenAllSums(s1, rest);
      if a.req.verb == "POST" {
        var x := Contribution(a.req.contentLength);
        assert Amounts(arrivals) == [x] + Amounts(rest);
        SumAppend([x], Amounts(rest));
        assert [x][..0] == [];
      } else {
        assert Amounts(arrivals) == Amounts(rest);
      }
    }
  }

  /** A run of the listener records exactly the POST history of the running
      payload sum and base. */
  lemma {:induction false} ListenAllRecords(s: Server, arrivals: seq<Arrival>)
    requires s.listening
    ensures ListenAll(s, arrivals).postSamples
              == s.postSamples + History(s.counters.postBytes, s.counters.postBase, Amounts(arrivals))
    decreases |arrivals|
  {
    if |arrivals| > 0 {
      var s1 := ListenerStep(s, arrivals[0].req, arrivals[0].time);
      assert ListenAll(s, arrivals) == ListenAll(s1, arrivals[1..]);
      ListenAllRecords(s1, arrivals[1..]);
      StepRecords(s, arrivals);
    } else {
      assert s.postSamples + [] == s.postSamples;
    }
  }

  /** One listener step moves the first arrival's sample, if any, from the
      history still to come into the recorded samples. */
  lemma StepRecords(s: Server, arrivals: seq<Arrival>)
    requires s.listening && |arrivals| > 0
    ensures var s1 := ListenerStep(s, arrivals[0].req, arrivals[0].time);
            s.postSamples + History(s.counters.postBytes, s.counters.postBase, Amounts(arrivals))
              == s1.postSamples + History(s1.counters.postBytes, s1.counters.postBase, Amounts(arrivals[1..]))
  {
    var a, rest := arrivals[0], arrivals[1..];
    var s1 := ListenerStep(s, a.req, a.time);
    var sum0, base0 := s.counters.postBytes, s.counters.postBase;
    if a.req.verb == "POST" {
      var x := Contribution(a.req.contentLength);
      var sum1, base1 := s1.counters.postBytes, s1.counters.postBase;
      assert sum1 == sum0 + x && base1 == base0 + 1;
      assert s1.postSamples == s.postSamples + [AvgSample(sum1, base1)];
      assert Amounts(arrivals) == [x] + Amounts(rest);
      RecordOne(s.postSamples, sum0, base0, x, Amounts(rest), sum1, base1);
    } else {
      assert s1.counters.postBytes == sum0 && s1.counters.postBase == base0;
      assert s1.postSamples == s.postSamples;
      assert Amounts(arrivals) == Amounts(rest);
    }
  }

  /** Three POSTs of 10, 20 and 30 bytes give a lifetime average of 20; a
      fourth of 100 bytes raises it to 40. */
  lemma PostAverageScenario(s: Server)
    requires s.listening && s.counters == Zero
    ensures var p := (n: int) => Arrival(Request("POST", "/", n), 0.0);
            && FullAverage(ListenAll(s, [p(10), p(20), p(30)]).counters) == Ok(20)
            && FullAverage(ListenAll(s, [p(10), p(20), p(30), p(100)]).counters) == Ok(40)
  {
    var p := (n: int) => Arrival(Request("POST", "/", n), 0.0);
    var three := [p(10), p(20), p(30)];
    var four := [p(10), p(20), p(30), p(100)];
    ListenAllSums(s, three);
    ListenAllSums(s, four);
    assert Contribution(10) == 10 && Contribution(20) == 20;
    assert Contribution(30) == 30 && Contribution(100) == 100;
    assert Amounts(three[2..]) == [30];
    assert Amounts(three[1..]) == [20, 30];
    assert Amounts(three) == [10, 20, 30];
    assert Amounts(four[3..]) == [100];
    assert Amounts(four[2..]) == [30, 100];
    assert Amounts(four[1..]) == [20, 30, 100];
    assert Amounts(four) == [10, 20, 30, 100];
    assert Sum([10, 20, 30]) == 60 by {
      assert [10, 20, 30][..2] == [10, 20];
      assert [10, 20][..1] == [10];
      assert [10][..0] == [];
    }
    assert Sum([10, 20, 30, 100]) == 160 by {
      assert [10, 20, 30, 100][..3] == [10, 20, 30];
      assert [10, 20, 30][..2] == [10, 20];
      assert [10, 20][..1] == [10];
      assert [10][..0] == [];
    }
  }

  /** While the rate history is in step with the request counter, an arrival
      at a later time reads as one request over the time since the previous
      sample. */
  lemma RateAfterArrival(s: Server, req: Request, now: real)
    requires s.listening && |s.rateSamples| > 0
    requires s.rateSamples[|s.rateSamples| - 1].raw == s.counters.requests
    requires s.rateSamples[|s.rateSamples| - 1].time < now
    ensures var last := s.rateSamples[|s.rateSamples| - 1];
            RequestsPerSecond(ListenerStep(s, req, now).rateSamples) * (now - last.time) == 1.0
  {
    var r := ListenerStep(s, req, now).rateSamples;
    assert r[|r| - 2] == s.rateSamples[|s.rateSamples| - 1];
  }

  // ---------------------------------------------------------------------
  // Workers.

  /** What dispatch sees of a server. */
  function DispatchEnv(s: Server, matches: Matcher, fs: FileSystem): Env
  {
    Env(s.routes, matches, s.settings.webRoot, s.settings.dirIndex, fs)
  }

  /** One turn of worker `i`: a non-running slot does nothing; otherwise the
      queue step, with a dequeued request dispatched to completion before
      the worker's next turn. */
  function WorkerStep(s: Server, i: nat, matches: Matcher, fs: FileSystem, fx: Effects): (r: Server)
    ensures |r.workers| == |s.workers|
    ensures i >= |s.workers| || s.workers[i] != Running ==> r == s
    ensures forall k :: 0 <= k < |s.workers| && k != i ==> r.workers[k] == s.workers[k]
    ensures i < |s.workers| && s.workers[i] == Running && r.workers[i] == Exited && Valid(s.channel) ==>
              s.channel == Channel([], false, true)
    ensures Valid(s.channel) ==> Valid(r.channel)
    ensures r.channel.stop == s.channel.stop
    ensures r == s || r.workers != s.workers || Weight(r.channel) < Weight(s.channel)
    ensures r.workers != s.workers ==> r.channel == s.channel && r.counters == s.counters
    ensures i < |s.workers| && s.workers[i] == Running && WorkerTurn(s.channel).Took? ==>
              r.channel == WorkerTurn(s.channel).rest
              && r.counters == ProcessRequest(DispatchEnv(s, matches, fs), s.counters, WorkerTurn(s.channel).item, fx).0
    ensures i < |s.workers| && s.workers[i] == Running && WorkerTurn(s.channel).Exit? ==>
              r == s.(workers := s.workers[i := Exited])
    ensures i < |s.workers| && s.workers[i] == Running && WorkerTurn(s.channel).Cleared? ==>
              r == s.(channel := WorkerTurn(s.channel).rest)
    ensures i < |s.workers| && s.workers[i] == Running && WorkerTurn(s.channel).Blocked? ==> r == s
    ensures r == s.(workers := r.workers, channel := r.channel, counters := r.counters)
  {
    if i >= |s.workers| || s.workers[i] != Running then s
    else
      match WorkerTurn(s.channel)
      case Blocked => s
      case Exit => s.(workers := s.workers[i := Exited])
      case Cleared(rest) => s.(channel := rest)
      case Took(req, rest) =>
        s.(channel := rest,
           counters := ProcessRequest(DispatchEnv(s, matches, fs), s.counters, req, fx).0)
  }

  /** Worker `i` taking turns, its handlers never throwing, until it blocks
      or leaves its loop. */
  function RunWorker(s: Server, i: nat, matches: Matcher, fs: FileSystem): Server
    decreases Weight(s.channel)
  {
    var s' := WorkerStep(s, i, matches, fs, Effects(false, false));
    if s' == s || s'.workers != s.workers then s'
    else RunWorker(s', i, matches, fs)
  }

  /** After the stop signal a running worker dispatches every queued request,
      in queue order, and only then exits; the counters end up as serving that
      batch leaves them. */
  lemma {:induction false} RunWorkerAfterStop(s: Server, i: nat, matches: Matcher, fs: FileSystem)
    requires i < |s.workers| && s.workers[i] == Running
    requires Valid(s.channel) && s.channel.stop
    ensures var r := RunWorker(s, i, matches, fs);
            && r.workers == s.workers[i := Exited]
            && r.channel == Channel([], false, true)
            && r.counters == ServeAll(DispatchEnv(s, matches, fs), s.counters, s.channel.items)
    decreases Weight(s.channel)
  {
    var s' := WorkerStep(s, i, matches, fs, Effects(false, false));
    var env := DispatchEnv(s, matches, fs);
    if s.channel.ready && |s.channel.items| > 0 {
      assert s' != s;
      assert DispatchEnv(s', matches, fs) == env;
      RunWorkerAfterStop(s', i, matches, fs);
    } else if s.channel.ready {
      assert s' != s;
      RunWorkerAfterStop(s', i, matches, fs);
    } else {
      assert s.channel.items == [];
    }
  }

  /** The serving scenario with a single worker and no webroot: after GETs
      arrive and the server is told to stop, the worker exits having counted
      one success per routed GET and one failure per unrouted one, and the
      GET counter counts them all. */
  lemma ServeThenStop(s: Server, arrivals: seq<Arrival>, matches: Matcher, fs: FileSystem)
    requires s.listening && |s.workers| == 1 && s.workers[0] == Running
    requires s.channel == Channel([], false, false) && s.settings.webRoot.None?
    requires forall k :: 0 <= k < |arrivals| ==> arrivals[k].req.verb == "GET"
    ensures var r := RunWorker(SignalStop(ListenAll(s, arrivals)), 0, matches, fs);
            var env := DispatchEnv(s, matches, fs);
            && r.workers == [Exited]
            && r.channel.items == []
            && r.counters.gets == s.counters.gets + |arrivals|
            && r.counters.succeeded == s.counters.succeeded + Routed(env, Requests(arrivals))
            && r.counters.failed == s.counters.failed + |arrivals| - Routed(env, Requests(arrivals))
  {
    var l := ListenAll(s, arrivals);
    ListenAllFrame(s, arrivals);
    ListenAllQueues(s, arrivals);
    ListenAllCounts(s, arrivals);
    assert l.channel.items == Requests(arrivals);
    var t := SignalStop(l);
    assert DispatchEnv(t, matches, fs) == DispatchEnv(s, matches, fs);
    ServeQueued(t, matches, fs);
    AllGets(arrivals);
  }

  /** A lone stopped worker without a webroot serves the whole queue and tallies it. */
  lemma ServeQueued(t: Server, matches: Matcher, fs: FileSystem)
    requires |t.workers| == 1 && t.workers[0] == Running
    requires Valid(t.channel) && t.channel.stop && t.settings.webRoot.None?
    ensures var r := RunWorker(t, 0, matches, fs);
            var env := DispatchEnv(t, matches, fs);
            && r.workers == [Exited]
            && r.channel.items == []
            && r.counters == t.counters.(succeeded := t.counters.succeeded + Routed(env, t.channel.items),
                                         failed := t.counters.failed + |t.channel.items| - Routed(env, t.channel.items))
  {
    RunWorkerAfterStop(t, 0, matches, fs);
    ServeAllTally(DispatchEnv(t, matches, fs), t.counters, t.channel.items);
  }

  lemma {:induction false} AllGets(arrivals: seq<Arrival>)
    requires forall k :: 0 <= k < |arrivals| ==> arrivals[k].req.verb == "GET"
    ensures CountVerb(arrivals, "GET") == |arrivals|
    decreases |arrivals|
  {
    if |arrivals| > 0 {
      AllGets(arrivals[1..]);
    }
  }

  // ---------------------------------------------------------------------
  // Lifecycle properties.

  /** Worker slots are sized once: whatever `MaxThreads` is later set to, a
      successful start runs exactly the constructor's number of workers. */
  lemma WorkerCountFixed(s: Server, value: int)
    requires !s.listening
    ensures var t := Start(SetMaxThreads(s, value).server, true).server;
            |t.workers| == |s.workers| && AllSlots(t.workers, Running)
  {
  }

  /** Until a start succeeds, no operation fills a null worker slot. */
  lemma SlotsStayNullUntilStart(s: Server, req: Request, now: real, i: nat,
                                matches: Matcher, fs: FileSystem, fx: Effects, value: int, bindOk: bool)
    requires AllSlots(s.workers, Unstarted)
    ensures AllSlots(ListenerStep(s, req, now).workers, Unstarted)
    ensures AllSlots(WorkerStep(s, i, matches, fs, fx).workers, Unstarted)
    ensures AllSlots(SignalStop(s).workers, Unstarted)
    ensures AllSlots(SetMaxThreads(s, value).server.workers, Unstarted)
    ensures Start(s, bindOk).error.Some? ==> AllSlots(Start(s, bindOk).server.workers, Unstarted)
  {
  }

  /** As written, a stop that completed (so every slot had been started and
      has exited) leaves the server not listening, and stopping it again
      completes at once without an exception. */
  lemma StopIsRepeatableAsWritten(s: Server)
    requires JoinAsWritten(SignalStop(s)).Finished? && JoinAsWritten(SignalStop(s)).outcome.error.None?
    ensures var t := JoinAsWritten(SignalStop(s)).outcome;
            && !t.server.listening && !t.server.transportOpen
            && JoinAsWritten(SignalStop(t.server)) == Finished(Outcome(Closed(SignalStop(t.server)), None))
  {
  }

  /** With the corrected joins, a completed stop leaves the server not
      listening, and stopping it again completes at once without an exception. */
  lemma StopIsRepeatable(s: Server)
    requires Join(SignalStop(s)).Finished?
    ensures var t := Join(SignalStop(s)).outcome;
            && t.error.None? && !t.server.listening && !t.server.transportOpen
            && Join(SignalStop(t.server)) == Finished(Outcome(Closed(SignalStop(t.server)), None))
  {
  }

  // ---------------------------------------------------------------------
  // The two lifecycle defects, as written and as corrected.

  /** A freshly constructed one-worker server, started, stopped and drained. */
  function StartedAndStopped(s: Server, matches: Matcher, fs: FileSystem): Server
  {
    var started := StartAsWritten(s, true).server;
    var drained := RunWorker(SignalStop(started), 0, matches, fs);
    match JoinAsWritten(drained)
    case Finished(o) => o.server
    case Waiting(_) => drained
  }

  /** As written, a server that was started and stopped cannot be started
      again: the second start throws and leaves it not listening. */
  lemma RestartFailsAsWritten(s: Server, matches: Matcher, fs: FileSystem)
    requires !s.listening && !s.listenerStarted && s.workers == [Unstarted]
    requires s.channel == Channel([], false, false)
    ensures var t := StartedAndStopped(s, matches, fs);
            && !t.listening
            && StartAsWritten(t, true).error == Some(ThreadAlreadyStarted)
            && !StartAsWritten(t, true).server.listening
  {
    var started := StartAsWritten(s, true).server;
    assert started.workers == [Running];
    RunWorkerAfterStop(SignalStop(started), 0, matches, fs);
  }

  /** Corrected, the same server restarts: it listens again, every worker
      runs, and a worker facing the empty queue waits instead of exiting. */
  lemma RestartSucceeds(s: Server, matches: Matcher, fs: FileSystem, fx: Effects)
    requires !s.listening && s.workers == [Unstarted]
    requires s.channel == Channel([], false, false)
    ensures var started := Start(s, true).server;
            var drained := RunWorker(SignalStop(started), 0, matches, fs);
            && Join(drained).Finished?
            && var t := Start(Join(drained).outcome.server, true);
               && t.error.None? && t.server.listening && t.server.workers == [Running]
               && WorkerStep(t.server, 0, matches, fs, fx) == t.server
  {
    var started := Start(s, true).server;
    assert started.workers == [Running];
    RunWorkerAfterStop(SignalStop(started), 0, matches, fs);
  }

  /** As written, stopping a server that never started throws at the first
      null worker slot. */
  lemma StopBeforeStartFailsAsWritten(s: Server)
    requires |s.workers| >= 1 && AllSlots(s.workers, Unstarted)
    ensures JoinAsWritten(SignalStop(s)) == Finished(Outcome(SignalStop(s), Some(NullWorker)))
  {
    assert s.workers[0] == Unstarted;
  }

  /** Corrected, stopping a server that never started completes, leaving it
      not listening. */
  lemma StopBeforeStartSucceeds(s: Server)
    requires AllSlots(s.workers, Unstarted)
    ensures Join(SignalStop(s)) == Finished(Outcome(Closed(SignalStop(s)), None))
    ensures !Join(SignalStop(s)).outcome.server.listening
  {
  }

  // ---------------------------------------------------------------------
  // The example resources: one scoped to port 1234, one to port 1235.

  const PatternA := "^/resource/a/[0-9.\\-A-Za-z]*$"
  const PatternB := "^/resource/b/[0-9.\\-A-Za-z]+$"

  function ExampleResource(name: string, scope: string, pattern: string): TypeDesc
  {
    TypeDesc(name, false, true, true, [scope],
             [MethodDesc("MyGetResponder", false, [RouteAttr("GET", pattern)])])
  }

  const ResourceA := ExampleResource("ResourceA", "http://localhost:1234/", PatternA)
  const ResourceB := ExampleResource("ResourceB", "http://localhost:1235/", PatternB)

  /** Of two sealed single-scope resources, only the one scoped to the base
      URL is registered. */
  lemma OnlyMatchingScopeRegisters(t: TypeDesc, u: TypeDesc, url: string)
    requires Candidate(t) && t.isSealed && t.scopes == [url]
    requires Candidate(u) && u.isSealed && |u.scopes| == 1 && !Admits(u.scopes[0], url)
    ensures LoadTypes([], [t, u], url) == Ok([t])
  {
    assert AddPerScope([t], t, [], url) == Ok([t]);
    assert AddPerScope([], t, t.scopes, url) == Ok([t]) by {
      assert [] + [t] == [t];
      assert t.scopes[1..] == [];
    }
    assert AddPerScope([t], u, u.scopes, url) == Ok([t]) by {
      assert u.scopes[1..] == [];
    }
    assert LoadTypes([t], [t, u][1..], url) == Ok([t]) by {
      assert [t, u][1..] == [u];
      assert LoadType([t], u, url) == Ok([t]);
      assert LoadTypes([t], [u][1..], url) == Ok([t]);
    }
  }

  lemma ExampleBaseUrl(c: Settings)
    requires c.protocol == "http" && c.host == "localhost" && c.port == "1234"
    ensures BaseUrl(c) == ResourceA.scopes[0]
    ensures !Admits(ResourceB.scopes[0], BaseUrl(c))
  {
    ExampleUrlText(c);
    assert "http://localhost:1235/"[20] != "http://localhost:1234/"[20];
  }

  lemma ExampleUrlText(c: Settings)
    requires c.protocol == "http" && c.host == "localhost" && c.port == "1234"
    ensures BaseUrl(c) == "http://localhost:1234/"
  {
    assert BaseUrl(c) == c.protocol + "://" + c.host + ":" + c.port + "/";
  }

  lemma ExampleScan()
    ensures ScannedTypes([AssemblyDesc("Grapevine.Example", false, [ResourceA, ResourceB])]) == [ResourceA, ResourceB]
  {
    var asm := AssemblyDesc("Grapevine.Example", false, [ResourceA, ResourceB]);
    assert Scanned(asm);
    assert [asm][1..] == [];
  }

  /** A server on port 1234 registers only the resource scoped to it. */
  lemma ExampleRegistration(c: Settings)
    requires c.protocol == "http" && c.host == "localhost" && c.port == "1234"
    ensures LoadResources([AssemblyDesc("Grapevine.Example", false, [ResourceA, ResourceB])], BaseUrl(c))
              == Ok([ResourceA])
  {
    ExampleBaseUrl(c);
    ExampleScan();
    OnlyMatchingScopeRegisters(ResourceA, ResourceB, BaseUrl(c));
  }

  /** Its route table holds resource A's single GET route. */
  lemma ExampleRoutes()
    ensures LoadRoutes([ResourceA]) == [Route("ResourceA", "MyGetResponder", [RouteAttr("GET", PatternA)])]
  {
  }

  /** A URL without a query string is its own request path. */
  lemma PathWithoutQuery(url: string)
    requires '?' !in url
    ensures RequestPath(url) == url
  {
    BeforeUnique(url, '?', url);
  }

  /** A table of one single-attribute route whose pattern misses the path
      routes nothing there. */
  lemma LoneRouteMisses(routes: seq<Route>, path: string, verb: string, matches: Matcher)
    requires |routes| == 1 && |routes[0].attrs| == 1
    requires !matches(path, routes[0].attrs[0].pathInfo)
    ensures FindRoute(routes, path, verb, matches).None?
  {
    assert !Accepts(routes[0], path, verb, matches);
  }

  /** No route of the example table accepts a GET for resource B's path. */
  lemma ExampleUnrouted(env: Env, req: Request)
    requires env.routes == [Route("ResourceA", "MyGetResponder", [RouteAttr("GET", PatternA)])]
    requires req == Request("GET", "/resource/b/random", -1)
    requires !env.matches("/resource/b/random", PatternA)
    ensures FindRoute(env.routes, RequestPath(req.rawUrl), req.verb, env.matches).None?
  {
    PathWithoutQuery(req.rawUrl);
    LoneRouteMisses(env.routes, req.rawUrl, req.verb, env.matches);
  }

  /** So that GET is a 404 when no webroot is set, whatever the handler
      would do. */
  lemma ExampleNotFound(env: Env, req: Request, fx: Effects, counters: Counters)
    requires env.routes == [Route("ResourceA", "MyGetResponder", [RouteAttr("GET", PatternA)])]
    requires env.webRoot.None?
    requires req == Request("GET", "/resource/b/random", -1)
    requires !env.matches("/resource/b/random", PatternA)
    ensures ProcessRequest(env, counters, req, fx) == (counters.(failed := counters.failed + 1), NotFound)
  {
    ExampleUnrouted(env, req);
    UnroutedIsNotFound(env, counters, req, fx);
  }

  /** A three-segment URL with neither query nor fragment names the file
      made of its segments joined by the directory separator. */
  lemma ThreeSegmentName(a: string, b: string, c: string, sep: char)
    requires '/' !in a && '/' !in b && '/' !in c
    requires '?' !in "/" + a + "/" + b + "/" + c && '#' !in "/" + a + "/" + b + "/" + c
    ensures RelativeName("/" + a + "/" + b + "/" + c, sep) == Ok(a + [sep] + b + [sep] + c)
  {
    var u := "/" + a + "/" + b + "/" + c;
    BeforeUnique(u, '#', u);
    var t := Replace(u, '/', sep);
    var name := a + [sep] + b + [sep] + c;
    assert |t[1..]| == |name|;
    forall i | 0 <= i < |name|
      ensures t[1..][i] == name[i]
    {
      if i < |a| {
        assert u[i + 1] == a[i];
      } else if i == |a| {
        assert u[i + 1] == '/';
      } else if i < |a| + 1 + |b| {
        assert u[i + 1] == b[i - |a| - 1];
      } else if i == |a| + 1 + |b| {
        assert u[i + 1] == '/';
      } else {
        assert u[i + 1] == c[i - |a| - |b| - 2];
      }
    }
    assert t[1..] == name;
    assert UrlHead(u) == u;
  }

  /** The file name that URL gives, whatever the directory separator. */
  lemma ExampleFileName(sep: char)
    ensures RelativeName("/resource/b/random", sep) == Ok("resource" + [sep] + "b" + [sep] + "random")
  {
    assert "/resource/b/random" == "/" + "resource" + "/" + "b" + "/" + "random";
    ThreeSegmentName("resource", "b", "random", sep);
  }

  /** With a webroot set, as the example servers have by default, that GET
      falls back to the static files; when the webroot holds no file for the
      name the URL gives, it is a 404 that adds exactly one failure. */
  lemma ExampleFileMissing(env: Env, req: Request, fx: Effects, counters: Counters)
    requires env.routes == [Route("ResourceA", "MyGetResponder", [RouteAttr("GET", PatternA)])]
    requires env.webRoot.Some?
    requires req == Request("GET", "/resource/b/random", -1)
    requires !env.matches("/resource/b/random", PatternA)
    requires var sep := env.fs.separator;
             var path := env.fs.combine(env.webRoot.value, "resource" + [sep] + "b" + [sep] + "random");
             !env.fs.isFile(path) && !(env.fs.isDir(path) && env.fs.isFile(env.fs.combine(path, env.dirIndex)))
    ensures ProcessRequest(env, counters, req, fx) == (counters.(failed := counters.failed + 1), NotFound)
  {
    ExampleUnrouted(env, req);
    ExampleFileName(env.fs.separator);
    UpperGet();
    MissingFileIsNotFound(env, counters, req, fx, "resource" + [env.fs.separator] + "b" + [env.fs.separator] + "random");
  }

  lemma UpperGet()
    ensures ToUpper("GET") == "GET"
  {
    var u := ToUpper("GET");
    assert u[0] == 'G' && u[1] == 'E' && u[2] == 'T';
  }
}

=== FILE: text.dfy ===
/** The few string and integer primitives of .NET the server relies on,
    written out explicitly. */
module Text {

  const TwoTo31: int := 0x8000_0000
  const TwoTo32: int := 0x1_0000_0000

  /** The characters of `s` before the first `c`: element 0 of `s.Split(c)`. */
  function Before(s: string, c: char): (r: string)
    ensures r <= s
    ensures c !in r
    ensures |r| < |s| ==> s[|r|] == c
  {
    if |s| == 0 || s[0] == c then "" else [s[0]] + Before(s[1..], c)
  }

  /** `Before` is the only prefix free of `c` that stops at a `c` or at the end. */
  lemma BeforeUnique(s: string, c: char, p: string)
    requires p <= s && c !in p
    requires |p| == |s| || s[|p|] == c
    ensures p == Before(s, c)
  {
  }

  /** `s.Replace(a, b)` for single characters. */
  function Replace(s: string, a: char, b: char): (r: string)
    ensures |r| == |s|
    ensures forall i :: 0 <= i < |s| && s[i] != a ==> r[i] == s[i]
    ensures forall i :: 0 <= i < |s| && s[i] == a ==> r[i] == b
  {
    if |s| == 0 then "" else [if s[0] == a then b else s[0]] + Replace(s[1..], a, b)
  }

  function UpperChar(ch: char): char
  {
    if 'a' <= ch <= 'z' then (ch as int - 32) as char else ch
  }

  /** `s.ToUpper()`, restricted to the ASCII letters. */
  function ToUpper(s: string): (r: string)
    ensures |r| == |s|
    ensures forall i :: 0 <= i < |s| ==> r[i] == UpperChar(s[i])
  {
    if |s| == 0 then "" else [UpperChar(s[0])] + ToUpper(s[1..])
  }

  /** A string already in upper case is left alone. */
  lemma {:induction false} ToUpperIdempotent(s: string)
    ensures ToUpper(ToUpper(s)) == ToUpper(s)
  {
    if |s| > 0 {
      ToUpperIdempotent(s[1..]);
    }
  }

  /** The unchecked C# cast `(int)x` of a 64-bit value: the low 32 bits read
      as a two's-complement number. */
  function ToInt32(x: int): (r: int)
    ensures -TwoTo31 <= r < TwoTo31
    ensures (x - r) % TwoTo32 == 0
    ensures -TwoTo31 <= x < TwoTo31 ==> r == x
  {
    var m := (x + TwoTo31) % TwoTo32;
    assert x + TwoTo31 == TwoTo32 * ((x + TwoTo31) / TwoTo32) + m;
    m - TwoTo31
  }
}

=== FILE: workqueue.dfy ===
/** The request queue shared by the listener and the workers, with its two
    manual-reset events, as atomic steps taken under the queue's lock. */
module WorkQueue {

  /** The queue, the `ready` event and the `stop` event. */
  datatype Channel<T> = Channel(items: seq<T>, ready: bool, stop: bool)

  /** A waiting item is always announced by the ready event. */
  predicate Valid<T>(q: Channel<T>)
  {
    |q.items| > 0 ==> q.ready
  }

  /** `QueueRequest`: append at the tail and set `ready`, under the lock. */
  function Enqueue<T>(q: Channel<T>, x: T): (r: Channel<T>)
    ensures r.items == q.items + [x]
    ensures r.ready && r.stop == q.stop
    ensures Valid(r)
  {
    Channel(q.items + [x], true, q.stop)
  }

  /** What one turn of a worker's loop does. */
  datatype Turn<T> =
    | Blocked                         // neither event is set: the wait does not return
    | Exit                            // the wait returned the stop event: the loop ends
    | Took(item: T, rest: Channel<T>) // the head was dequeued for processing
    | Cleared(rest: Channel<T>)       // the queue was empty: `ready` was reset

  /** One turn of `Worker`. `WaitAny` over [ready, stop] reports the lowest
      signalled index, so `ready` wins over `stop`; then, under the lock, the
      head is dequeued, or `ready` is reset when the queue is empty. */
  function WorkerTurn<T>(q: Channel<T>): (t: Turn<T>)
    ensures t.Exit? <==> !q.ready && q.stop
    ensures t.Blocked? <==> !q.ready && !q.stop
    ensures t.Took? <==> q.ready && |q.items| > 0
    ensures t.Took? ==> t.item == q.items[0] && t.rest == q.(items := q.items[1..])
    ensures t.Cleared? ==> |q.items| == 0 && t.rest == q.(ready := false)
    ensures Valid(q) && t.Exit? ==> |q.items| == 0
    ensures Valid(q) && (t.Took? || t.Cleared?) ==> Valid(t.rest)
  {
    if q.ready then
      if |q.items| > 0 then Took(q.items[0], q.(items := q.items[1..]))
      else Cleared(q.(ready := false))
    else if q.stop then Exit
    else Blocked
  }

  function Weight<T>(q: Channel<T>): nat
  {
    2 * |q.items| + (if q.ready then 1 else 0)
  }

  /** A lone worker running turns until its wait blocks or its loop ends:
      the items it processed, the final channel, and whether it exited. */
  function Drain<T>(q: Channel<T>): (seq<T>, Channel<T>, bool)
    decreases Weight(q)
  {
    match WorkerTurn(q)
    case Blocked => ([], q, false)
    case Exit => ([], q, true)
    case Took(x, rest) =>
      var (done, last, exited) := Drain(rest);
      ([x] + done, last, exited)
    case Cleared(rest) => Drain(rest)
  }

  /** With one worker and `stop` set, the worker processes every queued item
      in enqueue order and only then exits, leaving both the queue and
      `ready` clear. */
  lemma {:induction false} DrainAfterStop<T>(q: Channel<T>)
    requires Valid(q) && q.stop
    decreases Weight(q)
    ensures Drain(q) == (q.items, Channel([], false, true), true)
  {
    if q.ready && |q.items| > 0 {
      var rest := q.(items := q.items[1..]);
      DrainAfterStop(rest);
      assert [q.items[0]] + q.items[1..] == q.items;
    } else if q.ready {
      DrainAfterStop(q.(ready := false));
    }
  }

  /** With one worker and `stop` clear, the worker processes every queued item
      in enqueue order and then waits, with `ready` reset. */
  lemma {:induction false} DrainWhileServing<T>(q: Channel<T>)
    requires Valid(q) && !q.stop
    decreases Weight(q)
    ensures Drain(q) == (q.items, Channel([], false, false), false)
  {
    if q.ready && |q.items| > 0 {
      var rest := q.(items := q.items[1..]);
      DrainWhileServing(rest);
      assert [q.items[0]] + q.items[1..] == q.items;
    } else if q.ready {
      DrainWhileServing(q.(ready := false));
    }
  }

  /** An interleaving of the listener and any number of workers, at lock
      granularity: an enqueue, or one worker turn. */
  datatype Event<T> = Push(x: T) | Turn

  function Pushed<T>(events: seq<Event<T>>): seq<T>
  {
    if |events| == 0 then []
    else Pushed(events[..|events| - 1])
         + (match events[|events| - 1] case Push(x) => [x] case Turn => [])
  }

  /** Runs a schedule: the items dequeued, in lock order, and the final channel. */
  function Run<T>(q: Channel<T>, events: seq<Event<T>>): (seq<T>, Channel<T>)
  {
    if |events| == 0 then ([], q)
    else
      var (taken, mid) := Run(q, events[..|events| - 1]);
      match events[|events| - 1]
      case Push(x) => (taken, Enqueue(mid, x))
      case Turn =>
        match WorkerTurn(mid)
        case Took(x, rest) => (taken + [x], rest)
        case Cleared(rest) => (taken, rest)
        case _ => (taken, mid)
  }

  /** Whatever the interleaving, nothing is lost, duplicated or reordered:
      the items dequeued followed by those still queued are exactly the
      initial queue followed by the items enqueued; and a waiting item is
      always announced. */
  lemma {:induction false} RunConserves<T>(q: Channel<T>, events: seq<Event<T>>)
    requires Valid(q)
    ensures Run(q, events).0 + Run(q, events).1.items == q.items + Pushed(events)
    ensures Valid(Run(q, events).1)
    ensures Run(q, events).1.stop == q.stop
  {
    if |events| > 0 {
      var prefix := events[..|events| - 1];
      RunConserves(q, prefix);
      var (taken, mid) := Run(q, prefix);
      match events[|events| - 1]
      case Push(x) => {
        assert taken + (mid.items + [x]) == (taken + mid.items) + [x];
      }
      case Turn => {
        match WorkerTurn(mid)
        case Took(x, rest) => {
          assert mid.items == [x] + rest.items;
          assert (taken + [x]) + rest.items == taken + mid.items;
        }
        case Cleared(rest) => {}
        case Blocked => {}
        case Exit => {}
      }
    }
  }
}
